=== FILE: README.md ===
# superlearn core, modelled in Dafny

superlearn is a Next.js learning application. This project models the part of
it that holds decisions rather than layout:

- **Prompt templates.** These cover the `{{name}}` micro-language (`extractVariables`, `fillTemplate`), the three built-in templates, and the template store in browser storage.
- **Record stores.** These are lists of records kept under one browser-storage key:
  - curricula and generated content (`db.curricula`, `db.content`, including the cascade from a curriculum to its content);
  - chats, their messages and the automatic title;
  - agent states and checkpoints.
- **Prompt editor state.** The pure state updates of the prompt editor: the initial list, re-keying the variable values, selecting, saving and deleting a template, and the rule that enables "Use this prompt".
- **Route handlers.** The branch structure of the three route handlers: curriculum generation, web search and academic search. The language model, `fetch`, `JSON.parse`, the clock and the API key are outcomes passed in as parameters.
- **Tools.** The fixed tool registry, and the tool-call row of the chat UI: the title-cased label, the status icon and text, and the sources badge.
- **Chat list.** Newest-first order, day-bucket date labels, the path a selection navigates to, and delete.

## Design

Everything is a pure function over immutable datatypes.

**Storage.**
- A storage key is a `Records.Slot`. It is either unavailable (no `window`), unreadable (missing or unparsable), or holds a sequence of records.
- Every store is built from one set of list operations in `Records`: find-first, find-index, upsert-by-key and filter.
- Ids and timestamps (`Date.now()`, `new Date()`) are parameters.

**Parsing and substitution.** The template language has a single scanner, `PromptTemplates.Scan`. It splits a text into literal characters and `{{name}}` placeholders, leftmost first and without overlaps, exactly as a global regular expression matches.
- `ExtractVariables` is defined over the scan.
- `FillTemplate` is defined over the same scan.
- The scan is a canonical decomposition: scanning the flattened pieces of any canonical piece list gives that list back.

**Requests and JSON.**
- Requests carry a JSON value or no JSON at all.
- A property read is `undefined`, a value, or a `TypeError`, so the handlers' `try`/`catch` paths appear as explicit branches.

**Modules.**

| module | models |
|---|---|
| `Basics`, `Js`, `Json`, `Http` | Shared vocabulary: JavaScript decimal strings, `trim`, `split` and `slice` ends, JSON values and truthiness, request fields and error replies. |
| `Records` | Storage slots and the list operations the stores share. |
| `PromptTemplates` | lib/prompt-templates.ts |
| `Storage` | app/db/storage.ts |
| `ChatStorage` | lib/chat-storage.ts |
| `Tools` | lib/tools/types.ts and lib/tools/index.ts |
| `PromptEditor` | components/prompt-editor.tsx |
| `ChatList` | components/chat-list.tsx |
| `ToolExecution` | components/tool-execution.tsx |
| `CurriculumRoute` | app/api/generate-curriculum/route.ts |
| `WebSearchRoute` | app/api/tools/web-search/route.ts |
| `AcademicSearchRoute` | app/api/tools/academic-search/route.ts |

**Two facts about the source that shape the model.**
- `deletePromptTemplate` returns `void` (lib/prompt-templates.ts:104). `PromptTemplates.DeletePromptTemplate` therefore returns only the new slot, with no success flag.
- A filled template can still contain a marker, because the replacement text can complete a fresh one. Filling `{{{{a}}}}` with `a = b` yields `{{b}}` (`PromptTemplates.FillCanMakeMarker`). The substitution properties are therefore stated relative to the scan of the original template.

## Model

| member | source | states |
|---|---|---|
| Records.FindIndex | lib/chat-storage.ts:46 | `findIndex`: nothing exactly when no record matches; otherwise the position of the first matching record |
| Records.Find | lib/chat-storage.ts:78-81 | `find(...) \|\| null`: null exactly when no record matches; otherwise the first matching record |
| Records.Upsert | lib/chat-storage.ts:42-55 | the shared save idiom: replaces the first record with the key in place and leaves every other position unchanged; with no such record, it appends at the end |
| Records.FindAfterUpsert | lib/chat-storage.ts:42-55 | after an upsert, looking up by the same key returns exactly the record just saved |
| Records.Keep | lib/chat-storage.ts:87 | `filter`: only kept records that were already there, every record that passes survives, and the length is unchanged exactly when every record passes |
| Records.KeepAppend | lib/chat-storage.ts:87 | filtering distributes over concatenation, so the survivors keep their relative order |
| Records.KeepCount | lib/chat-storage.ts:87 | after filtering, each record occurs as often as before if it passes and not at all otherwise |
| Records.KeepAll | app/db/storage.ts:88 | when every record passes, the filtered list is the original list |
| Js.ParseNatToString | app/db/storage.ts:56 | the decimal text of a clock reading used as an id reads back as the same number |
| Js.Trim | components/prompt-editor.tsx:52 | `trim` keeps the middle of the text between whitespace runs, and yields "" exactly when the text is all whitespace |
| Js.SplitJoined | components/chat-list.tsx:26 | `split('/')` of a separator-free piece, a `/` and a rest gives that piece followed by the split of the rest |
| Js.SliceEnd | app/api/tools/web-search/route.ts:38 | where `slice(0, end)` stops: `min(end, length)` for non-negative ends; negative ends count back from the length and stop at 0 |
| Js.IntToString | components/chat-list.tsx:48 | the decimal text of an integer is non-empty and starts with '-' exactly when the number is negative |
| Json.GetProp | app/api/generate-curriculum/route.ts:42 | a property read throws exactly on `null`, and finds a value exactly when an object holds the key |
| Http.ErrorResponse | app/api/tools/web-search/route.ts:45-48 | an error reply carries the given status and a body whose only field is `error`, holding the message |
| Http.Field | app/api/tools/web-search/route.ts:5 | destructuring the body throws exactly when the body is not JSON or is `null`; a present key yields its value and a missing key yields `undefined` |
| Http.Limit | app/api/tools/web-search/route.ts:5 | `limit = 5` applies only when the key is missing; a numeric limit is used as given; `null` slices to nothing |
| Http.SliceFront | app/api/tools/academic-search/route.ts:87 | `slice(0, limit)` exists only for lists and strings. For both it yields exactly the prefix up to the `slice` end: `min(limit, n)` items for a non-negative limit, and the length less `-limit` (at least 0) for a negative one. The pre-slice length is reported beside it |
| Tools.GetTool | lib/tools/index.ts:12-14 | a descriptor is found exactly for a key of the registry, and it is the one registered under that key |
| Tools.GetAllTools | lib/tools/index.ts:16-18 | the registry's descriptors in insertion order, one for each entry |
| Tools.RegistryKeysAreNames | lib/tools/index.ts:6-10 | each registry key equals its descriptor's `name`, and no key is repeated |
| Tools.AllToolsFound | lib/tools/index.ts:6-18 | the registry lists the academic search, web search and calculator tools in that order, and `getTool` of each listed name returns that tool |
| Tools.RequiredParameters | lib/tools/academic-search.ts:19 | both searches require `query`, the calculator requires `expression`, and every required parameter is a declared property |
| Storage.FreshId | app/db/storage.ts:56 | a fresh id is a non-empty string of decimal digits |
| Storage.GetCurriculum | app/db/storage.ts:48-51 | null exactly when no curriculum has the id; otherwise the first one that does |
| Storage.SaveCurriculum | app/db/storage.ts:53-66 | appends exactly one curriculum with the given title and topics, a fresh id and both timestamps set to now; existing records and all content are untouched |
| Storage.PatchCurriculum | app/db/storage.ts:74-78 | every supplied field overrides the stored one, the id included; omitted fields keep their value; `updatedAt` is always refreshed |
| Storage.UpdateCurriculum | app/db/storage.ts:68-82 | an unknown id yields null and changes nothing. A known id patches only the first curriculum with that id, in place, and returns it; content is untouched |
| Storage.DeleteCurriculum | app/db/storage.ts:84-98 | reports false and changes nothing exactly when no curriculum has the id. Otherwise it drops every curriculum with the id and every content record of that curriculum, keeping the rest |
| Storage.KeepNoneCurricula | app/db/storage.ts:88 | when filtering by the id loses nothing, no curriculum carried the id (the test that makes delete report false) |
| Storage.GetContent | app/db/storage.ts:108-111 | null exactly when no record belongs to the pair (curriculum id, topic id); otherwise the first record that does |
| Storage.PatchContent | app/db/storage.ts:140-144 | supplied fields override, omitted ones are kept, and `updatedAt` is refreshed |
| Storage.UpdateContent | app/db/storage.ts:134-148 | an unknown id yields null and changes nothing; a known id patches only the first record with that id, in place; curricula are untouched |
| Storage.SaveContentAsWritten | app/db/storage.ts:113-132 | as written, the save updates the first record carrying the id of the pair's record. This is not always the pair's own record |
| Storage.SaveContentMisses | app/db/storage.ts:113-118 | two records sharing an id: saving for the second pair rewrites the first pair's content, and the second pair still reads its old content |
| Storage.SaveContent | app/db/storage.ts:113-132 | a stored pair gets only its own first record's content overwritten, in place, keeping the count; a new pair is appended; either way the pair's saved record is in the store |
| Storage.SaveContentKeepsPairsUnique | app/db/storage.ts:113-132 | "at most one record per pair" is preserved, and afterwards the pair reads back exactly the saved record |
| Storage.SaveContentTwice | app/db/storage.ts:113-118 | saving the same content twice at the same instant leaves the store as one save does |
| Storage.SaveContentAgreesOnUniqueIds | app/db/storage.ts:113-118 | when ids are distinct, the as-written save and the corrected save coincide |
| Storage.DeleteContent | app/db/storage.ts:150-158 | reports true exactly when some record has the id; it drops every such record, keeps the rest, and leaves curricula alone |
| ChatStorage.SaveChat | lib/chat-storage.ts:42-55 | without a window nothing happens; otherwise the chat replaces the first one with its id in place, or is appended, and the other chats stay |
| ChatStorage.LoadChat | lib/chat-storage.ts:78-81 | null exactly when no chat has the id; otherwise the first chat that does |
| ChatStorage.LoadSavedChat | lib/chat-storage.ts:42-81 | a saved chat loads back by its id |
| ChatStorage.DeleteChat | lib/chat-storage.ts:83-89 | every chat with the id is dropped, and every other chat survives in its order |
| ChatStorage.LoadDeletedChat | lib/chat-storage.ts:78-89 | after deleting an id, loading it yields null |
| ChatStorage.DefaultTitle | lib/chat-storage.ts:94 | the title is "New Chat" exactly when the argument is absent, empty or itself "New Chat"; any other given title is kept |
| ChatStorage.CreateNewChat | lib/chat-storage.ts:91-99 | a new chat has the id `chat-<now>`, no messages, both dates now, no metadata and the defaulted title |
| ChatStorage.NewChatIdRoundTrip | lib/chat-storage.ts:93 | the clock reading can be read back from a new chat's id |
| ChatStorage.AutoTitle | lib/chat-storage.ts:110 | a content of at most 50 characters is the title; a longer one is cut to 50 characters plus "...", which makes 53 |
| ChatStorage.WithMessage | lib/chat-storage.ts:105-111 | the message is appended last and `updatedAt` is now. The title is rewritten only for a "New Chat" whose first message comes from the user; everything else is kept |
| ChatStorage.AddMessageToChat | lib/chat-storage.ts:101-114 | an unknown chat changes nothing; otherwise only the first chat with the id is replaced by its updated form, in place |
| ChatStorage.AddMessageFrame | lib/chat-storage.ts:101-114 | the number of chats is unchanged, the chat's messages gain exactly the new one at the end, and every other chat is as it was |
| ChatStorage.SaveAgentState | lib/chat-storage.ts:117-130 | an upsert keyed by `chatId` |
| ChatStorage.LoadAgentState | lib/chat-storage.ts:151-154 | null exactly when no state belongs to the chat; otherwise the first that does |
| ChatStorage.LoadSavedAgentState | lib/chat-storage.ts:117-154 | a saved state loads back by its chat id |
| ChatStorage.DeleteAgentState | lib/chat-storage.ts:156-162 | every state of the chat is dropped and all others survive |
| ChatStorage.CreateCheckpoint | lib/chat-storage.ts:164-171 | appends exactly one checkpoint with the current step, the time and the context, and saves the state |
| ChatStorage.CheckpointStored | lib/chat-storage.ts:164-171 | after a checkpoint the state loads back with the earlier checkpoints unchanged and one more last, recording the current step and the context |
| PromptTemplates.WordPrefix | lib/prompt-templates.ts:46 | the longest run of `\w` characters at the head of a text |
| PromptTemplates.MarkerAtMatches | lib/prompt-templates.ts:46 | the regular expression matches `{{n}}` at a position exactly when `n` is a non-empty `\w` word and `{{n}}` starts there |
| PromptTemplates.Scan | lib/prompt-templates.ts:46-54 | the scan loses and adds nothing (its pieces spell the text), and every placeholder it finds is a `\w+` name |
| PromptTemplates.ScanCanonical | lib/prompt-templates.ts:50 | the scan always yields a canonical decomposition: no literal run starts a marker |
| PromptTemplates.FlattenScan | lib/prompt-templates.ts:50 | scanning the text of any canonical decomposition gives that decomposition back, so the scan is its inverse |
| PromptTemplates.Dedup | lib/prompt-templates.ts:51-53 | duplicates are dropped; the same names remain, in order of first occurrence |
| PromptTemplates.ScannedNames | lib/prompt-templates.ts:46-56 | every scanned name is a `\w+` word and occurs as `{{name}}` in the text |
| PromptTemplates.ExtractVariables | lib/prompt-templates.ts:45-57 | each scanned name appears exactly once, in order of first occurrence, as a non-empty `\w` word whose marker occurs in the template |
| PromptTemplates.NoVariablesIff | lib/prompt-templates.ts:45-57 | the result is empty exactly when no `{{name}}` occurs anywhere in the template |
| PromptTemplates.SomeNameWhenOccurs | lib/prompt-templates.ts:50 | if any marker occurs in a text, the scan finds at least one placeholder |
| PromptTemplates.RenderUnfilled | lib/prompt-templates.ts:61 | when no placeholder has a non-empty value, substitution gives back the text itself |
| PromptTemplates.FillTemplate | lib/prompt-templates.ts:59-63 | absent or empty values leave the template verbatim. Each unfilled variable's marker stays, and each filled variable's value appears in the output |
| PromptTemplates.FillDecomposed | lib/prompt-templates.ts:59-63 | filling a canonically decomposed text copies the literal pieces and replaces each placeholder by its value, or keeps the marker |
| PromptTemplates.FillAgrees | lib/prompt-templates.ts:59-63 | the output depends only on the values of the template's own variables |
| PromptTemplates.BracedVariables | lib/prompt-templates.ts:45-57 | in `{{{{n}}}}` the scan sees exactly one variable `n`, the innermost marker |
| PromptTemplates.BracedFill | lib/prompt-templates.ts:59-63 | filling `{{{{n}}}}` keeps the outer braces around the replacement |
| PromptTemplates.FillCanMakeMarker | lib/prompt-templates.ts:59-63 | filling `{{{{a}}}}` with `a = b` yields the marker `{{b}}`, so a filled text may still hold markers |
| PromptTemplates.OneVariable | lib/prompt-templates.ts:45-57 | a template with one marker and brace-free text around it has exactly that one variable |
| PromptTemplates.TwoPlaceholders | lib/prompt-templates.ts:59-63 | with two filled markers in brace-free text, the output is the text with both values in place |
| PromptTemplates.FillScenario | lib/prompt-templates.ts:59-63 | "Explain {{topic}} to a {{age}} year old" with both values given reads with the values in place |
| PromptTemplates.DefaultWellFormed | lib/prompt-templates.ts:12-43 | every built-in is marked default, and its `variables` equals the extraction of its text, `["topic"]` |
| PromptTemplates.BuiltinVariables | lib/prompt-templates.ts:12-43 | each of the three built-in texts has exactly the variable `topic` |
| PromptTemplates.DefaultIdsDistinct | lib/prompt-templates.ts:12-43 | the built-ins' ids are `explain-default`, `explain-like-5` and `explain-analogy`, in that order, and distinct |
| PromptTemplates.SavePromptTemplate | lib/prompt-templates.ts:91-102 | without a window nothing happens. Otherwise the template replaces the first stored one with its id in place, or is appended; the rest stay in order; looking up the id finds it |
| PromptTemplates.DeletePromptTemplate | lib/prompt-templates.ts:104-108 | the stored list becomes exactly the templates with another id, in their order; an unknown id leaves the stored list as it was |
| PromptTemplates.KeepNone | lib/prompt-templates.ts:106 | filtering by an id no template carries keeps the list as it is |
| PromptTemplates.DeleteBuiltinIsNoop | lib/prompt-templates.ts:104-108 | built-ins are never stored, so deleting a built-in id leaves storage unchanged |
| PromptEditor.Initial | components/prompt-editor.tsx:22-27 | the first render shows the given initial text, or the `explain` text when none is given, with an empty list and no values |
| PromptEditor.Mount | components/prompt-editor.tsx:30-39 | the list is the built-ins in registration order followed by the stored templates; `explain` is selected; text and values are left alone |
| PromptEditor.MountedDefaults | components/prompt-editor.tsx:30-39 | with only editor-made templates stored, the defaults in a mounted list are exactly the built-ins |
| PromptEditor.Rekey | components/prompt-editor.tsx:41-49 | the keys become exactly the given variables; surviving keys keep their value and new ones get "" |
| PromptEditor.RekeyIdempotent | components/prompt-editor.tsx:41-49 | re-keying twice for the same variables is re-keying once |
| PromptEditor.ChangeTemplate | components/prompt-editor.tsx:41-49 | after a change the key set is exactly the variables of the new text, old values survive, new keys are "", and the rest of the state is kept |
| PromptEditor.SelectTemplate | components/prompt-editor.tsx:85-90 | the template becomes the selection and its text the text, and values are re-keyed to its variables |
| PromptEditor.SelectBuiltin | components/prompt-editor.tsx:85-90 | selecting a built-in leaves exactly the key `topic` |
| PromptEditor.SelectKeys | components/prompt-editor.tsx:85-90 | selecting a one-variable template leaves exactly that key |
| PromptEditor.NewTemplate | components/prompt-editor.tsx:57-65 | a saved template has the id `custom-<now>`, the typed name and text, the extracted variables, and is not a default |
| PromptEditor.NewIdsDistinct | components/prompt-editor.tsx:57-65 | templates made at different clock readings get different ids |
| PromptEditor.SaveTemplate | components/prompt-editor.tsx:51-72 | a blank-after-trim name changes nothing. Otherwise the template is persisted and selected, added once to the list. The list becomes the editor-made templates in their order, then the new one, then the defaults in their order. The name clears and editing ends |
| PromptEditor.SaveOrder | components/prompt-editor.tsx:68 | in the saved order, non-defaults come before the new template and defaults after it |
| PromptEditor.KeepSplit | components/prompt-editor.tsx:68 | the reordering loses and invents no template |
| PromptEditor.DeleteTemplate | components/prompt-editor.tsx:74-83 | unconfirmed, nothing happens. Confirmed, storage and list lose exactly the templates with the id, and the list keeps the survivors in order. A deleted selection reverts the selection and text to `explain` |
| PromptEditor.SaveKeepsMirror | components/prompt-editor.tsx:51-72 | saving keeps the list equal, as a multiset, to the built-ins plus the stored templates |
| PromptEditor.DeleteKeepsMirror | components/prompt-editor.tsx:74-83 | deleting a non-default keeps the list equal, as a multiset, to the built-ins plus the stored templates |
| PromptEditor.DeleteLoads | components/prompt-editor.tsx:76 | the stored list after a delete is the old one filtered by the id |
| PromptEditor.SubmitEnabledAsWritten | components/prompt-editor.tsx:225 | as written, the button is enabled exactly when every value in the map is non-blank after trimming, whatever the text's variables |
| PromptEditor.InitialSubmitAsWritten | components/prompt-editor.tsx:225 | on the first render the rule as written enables the button, although `topic` has no value, and the submitted prompt still holds `{{topic}}` |
| PromptEditor.Submit | components/prompt-editor.tsx:92-95 | under the corrected rule a prompt is submitted exactly when every variable of the text has a non-blank value; then the prompt is exactly the template filled with the values, and each value appears in it |
| PromptEditor.SubmitRulesAgreeAfterChange | components/prompt-editor.tsx:225 | once the values are re-keyed to the text, the rule as written and the corrected rule agree |
| CurriculumRoute.Generate | app/api/generate-curriculum/route.ts:4-51 | A bad `input` in a readable body yields 400. An unreadable or `null` body, a thrown model call or a `null` reply yields 500 "Failed to generate curriculum". Unparsable text yields a parse failure and a bad shape a structure failure; 200 exactly on a well-shaped reply, echoed unchanged |
| CurriculumRoute.Validate | app/api/generate-curriculum/route.ts:41-46 | a reply with a truthy title and an array of topics is echoed; `null` fails as a thrown error; anything else is an invalid structure |
| CurriculumRoute.FailureMessages | app/api/generate-curriculum/route.ts:4-51 | every reply is either 200 or one of the four error replies with its status |
| CurriculumRoute.TopicsUnchecked | app/api/generate-curriculum/route.ts:42-46 | any topic list is passed through unchecked |
| WebSearchRoute.MockResults | app/api/tools/web-search/route.ts:16-35 | three results from the guide, Wikipedia and news sources, in that order |
| WebSearchRoute.TitlesEmbedQuery | app/api/tools/web-search/route.ts:16-35 | every mock title contains the query |
| WebSearchRoute.Listing | app/api/tools/web-search/route.ts:37-41 | the results are exactly the mock results up to the `slice` end: the first `min(limit, 3)` for a non-negative limit, and 3 less `-limit` (at least 0) for a negative one; duration is 250 and the total 3, whatever the limit |
| WebSearchRoute.Search | app/api/tools/web-search/route.ts:3-50 | an unreadable body yields the 500 failure and a falsy query yields 400 (the only 400); anything else is the listing for the query and limit |
| WebSearchRoute.LimitOnlyCuts | app/api/tools/web-search/route.ts:37-41 | a smaller limit gives a prefix of a larger one's results, with the same total |
| AcademicSearchRoute.MockPaper | app/api/tools/academic-search/route.ts:20-29 | the mock paper's title is "Sample Academic Paper on " followed by the query |
| AcademicSearchRoute.FallbackPaper | app/api/tools/academic-search/route.ts:76-83 | the fallback paper's title is the query and its abstract is the raw content; a missing content leaves no `abstract` key |
| AcademicSearchRoute.Papers | app/api/tools/academic-search/route.ts:72-84 | a missing content, an unparsable one or one that parses to `null` yields the one fallback paper. Otherwise a truthy `papers` is taken, or else the list is empty. The result is always truthy |
| AcademicSearchRoute.MockReply | app/api/tools/academic-search/route.ts:17-34 | the key-less reply: one mock paper, total 1, duration 100, source "Mock Database" |
| AcademicSearchRoute.ListReply | app/api/tools/academic-search/route.ts:86-91 | a list of papers gives exactly its prefix up to the `slice` end (`min(limit, n)` items for a non-negative limit). A string gives its own prefix. The total is the pre-slice length in both cases. Papers that cannot be sliced fail with 500 |
| AcademicSearchRoute.Search | app/api/tools/academic-search/route.ts:3-100 | An unreadable body fails and a falsy query yields 400 (the only 400); no key gives the mock reply. A thrown fetch, a non-ok reply or a reply without a message fails. Otherwise the papers of the message are listed, including when it has no content |
| AcademicSearchRoute.MockIgnoresLimit | app/api/tools/academic-search/route.ts:17-34 | without a key the reply depends on nothing but the query: not the limit, the service, the clock or the year |
| AcademicSearchRoute.UnparsableContent | app/api/tools/academic-search/route.ts:72-91 | unparsable content gives one result, the fallback paper, with total 1 |
| AcademicSearchRoute.MissingContent | app/api/tools/academic-search/route.ts:69-84 | a message without content gives 200 and one fallback paper without an abstract, whatever the parse would say |
| AcademicSearchRoute.NoPapers | app/api/tools/academic-search/route.ts:73 | parsed content without `papers` gives no results and total 0 |
| ChatList.Insert | components/chat-list.tsx:21 | inserting into a newest-first list keeps it newest-first and adds exactly the one chat |
| ChatList.SortByRecent | components/chat-list.tsx:21 | the sorted list is newest-first and a permutation of its input |
| ChatList.SortSorted | components/chat-list.tsx:21 | sorting a list that is already newest-first returns it unchanged |
| ChatList.SortIdempotent | components/chat-list.tsx:21 | sorting twice is sorting once |
| ChatList.Reload | components/chat-list.tsx:19-22 | the reloaded list is the stored chats, newest first |
| ChatList.DeleteFromList | components/chat-list.tsx:30-39 | unconfirmed, nothing happens. Confirmed, the chat is deleted from storage, and the list becomes the chats with other ids, in their order (still newest-first); the new-chat callback fires exactly for the current chat when a callback exists |
| ChatList.KeepNewestFirst | components/chat-list.tsx:34 | filtering a newest-first list leaves it newest-first |
| ChatList.KeepInsert | components/chat-list.tsx:34 | filtering commutes with inserting into the ordered list |
| ChatList.KeepSort | components/chat-list.tsx:34 | filtering commutes with the newest-first sort |
| ChatList.DeleteAgreesWithReload | components/chat-list.tsx:30-39 | after a delete, the list shown equals what a fresh reload of storage shows |
| ChatList.Days | components/chat-list.tsx:44 | the day count is the floor of the difference in days |
| ChatList.DaysRange | components/chat-list.tsx:44-48 | exactly the differences within one day give 0 and within the next day 1; differences of seven days or more give at least 7; future dates give negative counts |
| ChatList.FormatDate | components/chat-list.tsx:41-50 | "Today" for less than a day, "Yesterday" for the next day, "<n> days ago" below a week (the future included), and the locale date from a week on |
| ChatList.FutureDate | components/chat-list.tsx:41-48 | a date up to one day ahead is labelled "-1 days ago" |
| ChatList.Section | components/chat-list.tsx:26 | the section taken from the path holds no `/` |
| ChatList.ChatPath | components/chat-list.tsx:24-28 | a selection always navigates to an absolute path |
| ChatList.SectionAlone | components/chat-list.tsx:26 | the section of `/<s>` is `s` |
| ChatList.SectionThenRest | components/chat-list.tsx:26 | the section of `/<s>/<rest>` is `s`, whatever the rest |
| ChatList.ChatPathInSection | components/chat-list.tsx:24-28 | selecting from `/<s>` or `/<s>/<rest>` navigates to `/<s>?chat=<id>` |
| ChatList.ChatPathNoSection | components/chat-list.tsx:24-28 | from an empty path the section is `undefined` and the path is `/undefined?chat=<id>` |
| ToolExecution.Spaced | components/tool-execution.tsx:56 | every `_` becomes a space and nothing else changes |
| ToolExecution.UpperCase | components/tool-execution.tsx:56 | a lower-case ASCII letter becomes its upper-case form (code point less 32); every other character is left alone; word characters stay word characters |
| ToolExecution.CapitaliseWords | components/tool-execution.tsx:56 | exactly the characters that start a word are upper-cased |
| ToolExecution.CapitaliseKeepsWords | components/tool-execution.tsx:56 | capitalising does not move word starts |
| ToolExecution.ToolLabel | components/tool-execution.tsx:56 | the label has the name's length and no `_`; its spaces are exactly the name's `_` and spaces; each word start is the upper-case form of the name's own character there; other characters are kept |
| ToolExecution.LabelIdempotent | components/tool-execution.tsx:56 | labelling a label changes nothing |
| ToolExecution.LabelJoin | components/tool-execution.tsx:56 | the label of `a_b` is the label of `a`, a space, then the label of `b` |
| ToolExecution.OneWord | components/tool-execution.tsx:56 | a lower-case word is labelled with its first letter upper-cased |
| ToolExecution.RegisteredLabels | components/tool-execution.tsx:56 | the three registered tools are labelled "Academic Search", "Web Search" and "Calculator" |
| ToolExecution.RegisteredToolsHaveIcons | components/tool-execution.tsx:11-15 | every registered tool has its own icon |
| ToolExecution.StatusIcon | components/tool-execution.tsx:31-52 | the tool's own icon exactly for a pending call of a tool that has one (a still loader otherwise); the spinning loader exactly while running; the check exactly when completed; the cross exactly when failed |
| ToolExecution.FailureText | components/tool-execution.tsx:63 | a failure shows its non-empty error, or "Failed" |
| ToolExecution.StatusTextAsWritten | components/tool-execution.tsx:61-62 | as written, a completed call that took 0 ms shows a bare "0" |
| ToolExecution.StatusText | components/tool-execution.tsx:58-64 | "Waiting..." and "Processing..." for pending and running, the failure text for failures; a completed call shows "Completed in <duration>ms" exactly when its duration is present and non-zero, and nothing otherwise |
| ToolExecution.StatusTextsAgree | components/tool-execution.tsx:61-62 | the as-written and corrected texts differ exactly for a completed call with duration 0 |
| ToolExecution.SourcesBadge | components/tool-execution.tsx:67-71 | the badge "<n> sources" is shown exactly when the metadata lists sources, even an empty list |
| ToolExecution.RenderRow | components/tool-execution.tsx:23-72 | a row is keyed by the call id and shows the label, icon, as-written status text and badge of the call; a completed call that took 0 ms shows "0" |
| ToolExecution.FixedRow | components/tool-execution.tsx:23-72 | the same row with the corrected status text |
| ToolExecution.RowsAgree | components/tool-execution.tsx:61-62 | the rendered and corrected rows differ only in the status, and exactly for a completed call that took 0 ms, where the rendered row shows "0" and the corrected one nothing |
| ToolExecution.Render | components/tool-execution.tsx:17-23 | nothing is rendered for no calls; otherwise one rendered row per call, in order |

## Left out

- Layout, animation, the template menu toggle, alerts and the confirmation dialog are left out as presentation. The dialog's answer is a boolean parameter.
- `JSON.parse` and `JSON.stringify` of stored lists are not modelled: a slot holds records, or is unreadable. The `Date` revival in the loaders is left out for the same reason. `JSON.parse` inside the route handlers is an oracle parameter.
- Clocks are left out: `Date.now()`, `new Date()`, `toISOString` and `getFullYear` are parameters. Two readings within one handler are taken as one instant.
- `toLocaleDateString` is left out: the locale text is a parameter of `ChatList.FormatDate`.
- Floating point and NaN are left out: JSON numbers and durations are integers, because every rule modelled compares or prints whole numbers.
- Http.Limit: a `limit` that is not a number or `null` is converted by JavaScript's numeric rules. That conversion is a parameter (`converted`), not modelled.
- Strings are sequences of characters. UTF-16 code units, surrogate pairs and Unicode case mapping beyond ASCII are left out.
- ToolExecution.UpperCase: upper-cases ASCII letters only.
- ChatList.SortByRecent: sorts by insertion, which is stable, but stability is not stated. The source's `Array.prototype.sort` is stable, and chats with equal times may appear in either order.
- PromptTemplates.FillTemplate: treats a name as filled only when the values map holds it as an own key. The source's `values[variable]` also finds inherited names such as `constructor` or `toString`, and inserts the function's source text. Values are modelled as a map of strings, which has no prototype.
- PromptEditor.Rekey: gives an inherited name such as `constructor` the value "". The source's `variableValues[v] || ""` keeps the prototype's function there, for the same reason.
- PromptEditor.SubmitEnabledAsWritten: never fails. In the source, a function value stored under an inherited name (see `Rekey`) makes `v.trim()` throw during render.
- ToolExecution.StatusIcon: gives a pending call of a tool named like an inherited property (`constructor`) the loader. In the source, `toolIcons[call.tool]` is then a function, which renders nothing in place of an icon.
- Tools.GetTool: returns `None` for every name that is not a key of the registry, including an inherited property name such as `constructor`. In JavaScript, `tools[name]` returns the prototype member there. The registry is modelled as a map, which has no prototype.
- The `execute` functions of the tools are left out: they call `fetch`. The upstream call of the academic search handler is an outcome parameter.
- The language-model calls and their prompt texts are left out. The generate-content route is a pass-through with no checks, and is not part of this model.
- The chat provider and the tool-call lifecycle are left out: no code moves a tool call between statuses, and the model invents no state machine.
- `db.curricula.getAll` and `db.content.getAll` are left out. A missing key loads as the empty list, which the model's plain lists cover. An unparsable or non-array value makes the source throw, and so does a write on the server, where `localStorage` is undefined. The stores are modelled as client-side lists that always load.
- `loadChats`, `loadAgentStates` and `loadPromptTemplates` are left out: they are `Records.Load`, because each falls back to an empty list.

## Findings

| source | as written | input that shows it | evidently intended | confidence | as-written member | corrected member |
|---|---|---|---|---|---|---|
| app/db/storage.ts:113-118 | For a stored pair, `content.save` updates by the pair's record id. The write lands on the first record with that id. | Two content records of curriculum `c` share id `1` because they were made in the same millisecond: topic `a` first, topic `b` second. Saving new content for `b` rewrites `a`, and `b` keeps its old content. | Overwrite the pair's own record. | medium, not executed | Storage.SaveContentAsWritten, Storage.SaveContentMisses | Storage.SaveContent, Storage.SaveContentKeepsPairsUnique |
| components/prompt-editor.tsx:225 | The button is disabled only if some value in the map is blank. The map starts empty and mounting does not re-key it. | The first render with the `explain` text and no values: the button is enabled, and the submitted prompt still contains `{{topic}}`. | Enable only when every variable of the text has a non-blank value. | medium, not executed | PromptEditor.SubmitEnabledAsWritten, PromptEditor.InitialSubmitAsWritten | PromptEditor.Submit, PromptEditor.SubmitRulesAgreeAfterChange |
| components/tool-execution.tsx:61-62 | `completed && duration && text` yields the number 0 when the duration is 0, and React prints it. | A completed call whose `metadata.duration` is 0 shows "0". | Show nothing when there is no time to report. | high, not executed | ToolExecution.StatusTextAsWritten, ToolExecution.StatusTextsAgree, ToolExecution.RenderRow | ToolExecution.StatusText, ToolExecution.FixedRow |

=== FILE: academic_search_route.dfy ===
/** The academic search handler (app/api/tools/academic-search/route.ts).
    After checking `query` it answers with one mock paper when no API key is
    configured; otherwise it asks the search service and lists the papers of
    its reply, cut at `limit`. The service call, `JSON.parse` of its content,
    the elapsed time and the current year are parameters. */
module AcademicSearchRoute {

  import opened Basics
  import opened Js
  import opened Json
  import opened Http

  const QueryRequired := "Query parameter is required"
  const SearchFailed := "Failed to perform academic search"

  /** The service call: `fetch` throws, the response is not ok, the reply
      has no `choices[0].message` (reading it throws), or the message
      arrives. `Replied(None)` is a message without `content`, which reads
      as `undefined`; `Replied(Some(c))` carries the content `c`. */
  datatype Upstream = FetchThrew | NotOk | NoMessage | Replied(content: Option<Value>)

  function Str(s: string): Value
  {
    JStr(s)
  }

  /** The paper listed when no key is configured; `q` is the query. */
  function MockPaper(q: Value): (p: Value)
    ensures GetProp(p, "title") == Found(JStr("Sample Academic Paper on " + ToJsString(q)))
  {
    JObj(map["title" := JStr("Sample Academic Paper on " + ToJsString(q)),
             "authors" := JArr([Str("Dr. Smith"), Str("Dr. Johnson")]),
             "year" := JNum(2024),
             "abstract" := JStr("This is a sample abstract for the academic search query..."),
             "url" := JStr("https://example.com/paper1"),
             "citations" := JNum(42)])
  }

  /** The paper standing for a reply whose content is not usable JSON: the
      query as title and the raw content as abstract. A missing content is
      `undefined`, and `JSON.stringify` drops the `abstract` key. */
  function FallbackPaper(q: Value, content: Option<Value>, year: int): (p: Value)
    ensures GetProp(p, "title") == Found(q)
    ensures content.Some? ==> GetProp(p, "abstract") == Found(content.value)
    ensures content.None? ==> GetProp(p, "abstract").Undefined?
  {
    var fields := map["title" := q, "authors" := JArr([Str("Various")]), "year" := JNum(year),
                      "url" := JStr("#"), "citations" := JNum(0)];
    match content
    case Some(c) => JObj(fields["abstract" := c])
    case None => JObj(fields)
  }

  /** `JSON.parse(content).papers || []`, or the fallback paper when the
      parse throws or yields `null` (reading `.papers` of it throws inside
      the same `try`). A missing content parses as the text "undefined",
      which always throws. */
  function Papers(q: Value, content: Option<Value>, parsed: Option<Value>, year: int): (ps: Value)
    ensures content.None? || parsed.None? || parsed.value.JNull? ==> ps == JArr([FallbackPaper(q, content, year)])
    ensures content.Some? && parsed.Some? && Given(GetProp(parsed.value, "papers")) ==>
              ps == GetProp(parsed.value, "papers").value
    ensures content.Some? && parsed.Some? && !parsed.value.JNull? && !Given(GetProp(parsed.value, "papers")) ==>
              ps == JArr([])
    ensures Truthy(ps)
  {
    if content.None? then JArr([FallbackPaper(q, content, year)])
    else
    match parsed
    case None => JArr([FallbackPaper(q, content, year)])
    case Some(v) =>
      var r := GetProp(v, "papers");
      if r.TypeError? then JArr([FallbackPaper(q, content, year)])
      else if Given(r) then r.value
      else JArr([])
  }

  /** The reply for a key-less server: one mock paper whatever the limit. */
  function MockReply(q: Value): (r: Response)
    ensures r.status == 200
    ensures GetProp(r.body, "results") == Found(JArr([MockPaper(q)]))
    ensures GetProp(r.body, "totalResults") == Found(JNum(1)) && GetProp(r.body, "duration") == Found(JNum(100))
    ensures GetProp(r.body, "sources") == Found(JArr([Str("Mock Database")]))
  {
    Response(200, JObj(map["results" := JArr([MockPaper(q)]), "duration" := JNum(100),
                           "sources" := JArr([Str("Mock Database")]), "totalResults" := JNum(1)]))
  }

  /** The reply listing `papers` cut at `limit`; the total counts them before
      the cut. Papers that are neither a list nor a string have no `slice`,
      and the call throws. */
  function ListReply(papers: Value, limit: int, duration: int): (r: Response)
    ensures !(papers.JArr? || papers.JStr?) ==> r == ErrorResponse(500, SearchFailed)
    ensures papers.JArr? ==>
              && r.status == 200 && r.body.JObj?
              && r.body.fields.Keys == {"results", "duration", "sources", "totalResults"}
              && r.body.fields["totalResults"] == JNum(|papers.items|)
              && r.body.fields["duration"] == JNum(duration)
              && r.body.fields["sources"] == JArr([Str("Perplexity Academic Search")])
              && r.body.fields["results"].JArr?
              && r.body.fields["results"].items <= papers.items
              && r.body.fields["results"].items == papers.items[..SliceEnd(|papers.items|, limit)]
              && (0 <= limit ==> |r.body.fields["results"].items| == if limit < |papers.items| then limit else |papers.items|)
    ensures papers.JStr? ==>
              && r.status == 200 && r.body.JObj?
              && r.body.fields.Keys == {"results", "duration", "sources", "totalResults"}
              && r.body.fields["totalResults"] == JNum(|papers.s|)
              && r.body.fields["duration"] == JNum(duration)
              && r.body.fields["sources"] == JArr([Str("Perplexity Academic Search")])
              && r.body.fields["results"] == JStr(papers.s[..SliceEnd(|papers.s|, limit)])
  {
    match SliceFront(papers, limit)
    case None => ErrorResponse(500, SearchFailed)
    case Some((results, total)) =>
      Response(200, JObj(map["results" := results, "duration" := JNum(duration),
                             "sources" := JArr([Str("Perplexity Academic Search")]),
                             "totalResults" := JNum(total)]))
  }

  /** `POST`. `apiKey` is the configured key; `converted` is the integer a
      non-numeric `limit` converts to. */
  function Search(req: Request, converted: int, apiKey: Option<string>, upstream: Upstream,
                  parsed: Option<Value>, duration: int, year: int): (r: Response)
    ensures Field(req, "query").TypeError? ==> r == ErrorResponse(500, SearchFailed)
    ensures !Field(req, "query").TypeError? && !Given(Field(req, "query")) ==> r == ErrorResponse(400, QueryRequired)
    ensures r.status == 400 <==> !Field(req, "query").TypeError? && !Given(Field(req, "query"))
    ensures Given(Field(req, "query")) && (apiKey.None? || apiKey.value == "") ==>
              r == MockReply(Field(req, "query").value)
    ensures Given(Field(req, "query")) && apiKey.Some? && apiKey.value != ""
            && (upstream.FetchThrew? || upstream.NotOk? || upstream.NoMessage?) ==>
              r == ErrorResponse(500, SearchFailed)
    ensures Given(Field(req, "query")) && apiKey.Some? && apiKey.value != "" && upstream.Replied? ==>
              var q := Field(req, "query").value;
              r == ListReply(Papers(q, upstream.content, parsed, year), Limit(req, converted), duration)
  {
    var q := Field(req, "query");
    if q.TypeError? then ErrorResponse(500, SearchFailed)
    else if !Given(q) then ErrorResponse(400, QueryRequired)
    else if apiKey.None? || apiKey.value == "" then MockReply(q.value)
    else
      match upstream
      case FetchThrew => ErrorResponse(500, SearchFailed)
      case NotOk => ErrorResponse(500, SearchFailed)
      case NoMessage => ErrorResponse(500, SearchFailed)
      case Replied(content) =>
        ListReply(Papers(q.value, content, parsed, year), Limit(req, converted), duration)
  }

  /** Without a key the limit and the service play no part. */
  lemma MockIgnoresLimit(req: Request, c1: int, c2: int, u1: Upstream, u2: Upstream,
                         p1: Option<Value>, p2: Option<Value>, d1: int, d2: int, y1: int, y2: int)
    requires Given(Field(req, "query"))
    ensures Search(req, c1, None, u1, p1, d1, y1) == Search(req, c2, None, u2, p2, d2, y2)
    ensures GetProp(Search(req, c1, None, u1, p1, d1, y1).body, "totalResults") == Found(JNum(1))
  {
  }

  /** Unparsable content is listed as one paper titled with the query and
      holding the content, for any positive limit. */
  lemma UnparsableContent(req: Request, converted: int, key: string, content: Value, duration: int, year: int)
    requires Given(Field(req, "query")) && key != ""
    requires Limit(req, converted) >= 1
    ensures var r := Search(req, converted, Some(key), Replied(Some(content)), None, duration, year);
            && r.status == 200
            && GetProp(r.body, "results") == Found(JArr([FallbackPaper(Field(req, "query").value, Some(content), year)]))
            && GetProp(r.body, "totalResults") == Found(JNum(1))
  {
    var ps := JArr([FallbackPaper(Field(req, "query").value, Some(content), year)]);
    assert ps.items[..SliceEnd(1, Limit(req, converted))] == ps.items;
  }

  /** A message without content is listed as one fallback paper titled with
      the query and without an abstract, whatever the parse oracle says. */
  lemma MissingContent(req: Request, converted: int, key: string, parsed: Option<Value>, duration: int, year: int)
    requires Given(Field(req, "query")) && key != ""
    requires Limit(req, converted) >= 1
    ensures var r := Search(req, converted, Some(key), Replied(None), parsed, duration, year);
            && r.status == 200
            && GetProp(r.body, "results") == Found(JArr([FallbackPaper(Field(req, "query").value, None, year)]))
            && GetProp(r.body, "totalResults") == Found(JNum(1))
            && GetProp(FallbackPaper(Field(req, "query").value, None, year), "abstract").Undefined?
  {
    var ps := JArr([FallbackPaper(Field(req, "query").value, None, year)]);
    assert ps.items[..SliceEnd(1, Limit(req, converted))] == ps.items;
  }

  /** A reply without `papers` lists nothing. */
  lemma NoPapers(req: Request, converted: int, key: string, content: Value, fields: map<string, Value>,
                 duration: int, year: int)
    requires Given(Field(req, "query")) && key != ""
    requires "papers" !in fields
    ensures var r := Search(req, converted, Some(key), Replied(Some(content)), Some(JObj(fields)), duration, year);
            && r.status == 200
            && GetProp(r.body, "results") == Found(JArr([]))
            && GetProp(r.body, "totalResults") == Found(JNum(0))
  {
  }
}

=== FILE: basics.dfy ===
/** Small generic vocabulary shared by the rest of the model: an optional
    value, "occurs as a contiguous piece of", first index and duplicate freedom. */
module Basics {

  /** A value that may be absent: JavaScript's `null` / `undefined` results. */
  datatype Option<+T> = None | Some(value: T) {

    /** The value, or `default` when absent (JavaScript's `x ?? default`). */
    function GetOr(default: T): T
    {
      match this
      case Some(v) => v
      case None => default
    }
  }

  /** `t` occurs as a contiguous piece of `s`, as in `s.includes(t)`. */
  predicate Occurs<T(==)>(t: seq<T>, s: seq<T>)
    decreases |s|
  {
    t <= s || (|s| > 0 && Occurs(t, s[1..]))
  }

  lemma {:induction false} OccursInMiddle<T>(a: seq<T>, t: seq<T>, b: seq<T>)
    ensures Occurs(t, a + t + b)
    decreases |a|
  {
    if |a| == 0 {
      assert a + t + b == t + b;
    } else {
      OccursInMiddle(a[1..], t, b);
      assert (a + t + b)[1..] == a[1..] + t + b;
    }
  }

  /** Anything occurring in a suffix occurs in the whole. */
  lemma {:induction false} OccursInSuffix<T>(t: seq<T>, a: seq<T>, b: seq<T>)
    requires Occurs(t, b)
    ensures Occurs(t, a + b)
    decreases |a|
  {
    if |a| > 0 {
      OccursInSuffix(t, a[1..], b);
      assert (a + b)[1..] == a[1..] + b;
    } else {
      assert a + b == b;
    }
  }

  /** Anything occurring in a prefix occurs in the whole. */
  lemma {:induction false} OccursInPrefix<T>(t: seq<T>, a: seq<T>, b: seq<T>)
    requires Occurs(t, a)
    ensures Occurs(t, a + b)
    decreases |a|
  {
    if t <= a {
      assert t <= a + b;
    } else {
      OccursInPrefix(t, a[1..], b);
      assert (a + b)[1..] == a[1..] + b;
    }
  }

  /** The position of the first `x` in `xs` (`xs.indexOf(x)` when present). */
  function IndexOf<T(==)>(xs: seq<T>, x: T): (i: nat)
    requires x in xs
    ensures i < |xs| && xs[i] == x && x !in xs[..i]
  {
    if xs[0] == x then 0 else 1 + IndexOf(xs[1..], x)
  }

  /** Appending leaves the first positions of earlier elements alone. */
  lemma IndexOfAppend<T>(xs: seq<T>, y: T, x: T)
    requires x in xs
    ensures IndexOf(xs + [y], x) == IndexOf(xs, x)
  {
    var i := IndexOf(xs, x);
    var j := IndexOf(xs + [y], x);
    assert (xs + [y])[i] == x;
  }

  /** A new element appended at the end is first found at the end. */
  lemma IndexOfAppendNew<T>(xs: seq<T>, x: T)
    requires x !in xs
    ensures IndexOf(xs + [x], x) == |xs|
  {
    assert (xs + [x])[..|xs|] == xs;
  }

  predicate NoDuplicates<T(==)>(xs: seq<T>)
  {
    forall i, j :: 0 <= i < j < |xs| ==> xs[i] != xs[j]
  }
}

=== FILE: chat_list.dfy ===
/** The chat list component (components/chat-list.tsx): the stored chats
    shown newest first, the relative date labels, the link a chat opens and
    deleting a chat from the list. `Array.prototype.sort` is stable, so the
    order is that of a stable insertion sort on `updatedAt`, descending. */
module ChatList {

  import opened Basics
  import opened Js
  import opened Records
  import opened ChatStorage

  // ---------------------------------------------------------------------
  // Newest first

  /** No chat is listed after one updated earlier than it. */
  predicate NewestFirst(cs: seq<Chat>)
  {
    forall i, j :: 0 <= i < j < |cs| ==> cs[i].updatedAt >= cs[j].updatedAt
  }

  /** Places `c` before the first chat not newer than it, which keeps `c`
      ahead of the equally recent chats that followed it. */
  function Insert(c: Chat, cs: seq<Chat>): (r: seq<Chat>)
    requires NewestFirst(cs)
    ensures NewestFirst(r)
    ensures forall d :: d in r <==> d in cs || d == c
    ensures multiset(r) == multiset(cs) + multiset{c}
  {
    if |cs| == 0 || cs[0].updatedAt <= c.updatedAt then
      ConsNewestFirst(c, cs);
      [c] + cs
    else
      var rest := Insert(c, cs[1..]);
      InsertLater(c, cs, rest);
      [cs[0]] + rest
  }

  /** The step of `Insert` past a newer head. */
  lemma InsertLater(c: Chat, cs: seq<Chat>, rest: seq<Chat>)
    requires NewestFirst(cs) && |cs| > 0 && cs[0].updatedAt > c.updatedAt
    requires NewestFirst(rest)
    requires forall d :: d in rest <==> d in cs[1..] || d == c
    requires multiset(rest) == multiset(cs[1..]) + multiset{c}
    ensures NewestFirst([cs[0]] + rest)
    ensures forall d :: d in [cs[0]] + rest <==> d in cs || d == c
    ensures multiset([cs[0]] + rest) == multiset(cs) + multiset{c}
  {
    assert cs == [cs[0]] + cs[1..];
    forall d | d in rest
      ensures d.updatedAt <= cs[0].updatedAt
    {
      if d != c {
        HeadIsNewest(cs, d);
      }
    }
    ConsNewestFirst(cs[0], rest);
  }

  /** A chat at least as recent as every chat of a sorted list may head it. */
  lemma ConsNewestFirst(x: Chat, cs: seq<Chat>)
    requires NewestFirst(cs)
    requires forall d :: d in cs ==> d.updatedAt <= x.updatedAt
    ensures NewestFirst([x] + cs)
  {
    forall i, j | 0 <= i < j < |[x] + cs|
      ensures ([x] + cs)[i].updatedAt >= ([x] + cs)[j].updatedAt
    {
      if i == 0 {
        assert ([x] + cs)[j] in cs;
      }
    }
  }

  /** The head of a sorted list is at least as recent as any of its chats. */
  lemma HeadIsNewest(cs: seq<Chat>, d: Chat)
    requires NewestFirst(cs) && d in cs
    ensures d.updatedAt <= cs[0].updatedAt
  {
    var j :| 0 <= j < |cs| && cs[j] == d;
  }

  /** The effect's `loadedChats.sort((a, b) => b.updatedAt - a.updatedAt)`. */
  function SortByRecent(cs: seq<Chat>): (r: seq<Chat>)
    ensures NewestFirst(r)
    ensures multiset(r) == multiset(cs)
  {
    if |cs| == 0 then []
    else
      assert cs == [cs[0]] + cs[1..];
      Insert(cs[0], SortByRecent(cs[1..]))
  }

  /** A list already newest first is left as it is, so sorting twice is
      sorting once. */
  lemma {:induction false} SortSorted(cs: seq<Chat>)
    requires NewestFirst(cs)
    ensures SortByRecent(cs) == cs
    decreases |cs|
  {
    if |cs| > 0 {
      SortSorted(cs[1..]);
      assert cs == [cs[0]] + cs[1..];
    }
  }

  lemma SortIdempotent(cs: seq<Chat>)
    ensures SortByRecent(SortByRecent(cs)) == SortByRecent(cs)
  {
    SortSorted(SortByRecent(cs));
  }

  /** What the list shows after a reload: the stored chats, newest first. */
  function Reload(slot: Slot<Chat>): (r: seq<Chat>)
    ensures NewestFirst(r) && multiset(r) == multiset(Load(slot))
  {
    SortByRecent(Load(slot))
  }

  // ---------------------------------------------------------------------
  // Deleting

  /** `handleDeleteChat`. Unconfirmed, nothing happens. Confirmed, the chat
      is deleted from storage and from the list, and the new-chat callback is
      invoked (the third component) exactly when the deleted chat is the
      current one and a callback was given. */
  function DeleteFromList(chats: seq<Chat>, slot: Slot<Chat>, confirmed: bool, id: string,
                          currentChatId: Option<string>, hasCallback: bool): (r: (seq<Chat>, Slot<Chat>, bool))
    ensures !confirmed ==> r == (chats, slot, false)
    ensures confirmed ==> r.1 == DeleteChat(slot, id)
    ensures confirmed ==> forall c :: c in r.0 <==> c in chats && c.id != id
    ensures confirmed && NewestFirst(chats) ==> NewestFirst(r.0)
    ensures confirmed ==> r.0 == Keep(chats, ChatLacksId(id))
    ensures r.2 <==> confirmed && currentChatId == Some(id) && hasCallback
  {
    if !confirmed then (chats, slot, false)
    else
      var kept := Keep(chats, ChatLacksId(id));
      KeepNewestFirst(chats, ChatLacksId(id));
      (kept, DeleteChat(slot, id), currentChatId == Some(id) && hasCallback)
  }

  /** Filtering keeps the order. */
  lemma {:induction false} KeepNewestFirst(cs: seq<Chat>, keep: Chat -> bool)
    ensures NewestFirst(cs) ==> NewestFirst(Keep(cs, keep))
    decreases |cs|
  {
    if |cs| > 0 && NewestFirst(cs) {
      KeepNewestFirst(cs[1..], keep);
      var rest := Keep(cs[1..], keep);
      forall d | d in rest
        ensures d.updatedAt <= cs[0].updatedAt
      {
        assert d in cs[1..];
        HeadIsNewest(cs, d);
      }
      ConsNewestFirst(cs[0], rest);
      assert cs == [cs[0]] + cs[1..];
      KeepCons(cs[0], cs[1..], keep);
    }
  }

  /** Filtering a sorted insertion is inserting into the filtered list. */
  lemma KeepInsert(c: Chat, cs: seq<Chat>, keep: Chat -> bool)
    requires NewestFirst(cs)
    ensures NewestFirst(Keep(cs, keep))
    ensures Keep(Insert(c, cs), keep) == if keep(c) then Insert(c, Keep(cs, keep)) else Keep(cs, keep)
  {
    KeepNewestFirst(cs, keep);
    InsertIsPlace(c, cs);
    KeepIsFilter(Insert(c, cs), keep);
    KeepIsFilter(cs, keep);
    FilterPlace(c, cs, keep);
    if keep(c) {
      InsertIsPlace(c, Keep(cs, keep));
    }
  }

  /** `Insert` without its contract, for proofs about its shape. */
  function Place(c: Chat, cs: seq<Chat>): seq<Chat>
  {
    if |cs| == 0 || cs[0].updatedAt <= c.updatedAt then [c] + cs
    else [cs[0]] + Place(c, cs[1..])
  }

  lemma {:induction false} InsertIsPlace(c: Chat, cs: seq<Chat>)
    requires NewestFirst(cs)
    ensures Insert(c, cs) == Place(c, cs)
    decreases |cs|
  {
    if |cs| > 0 && cs[0].updatedAt > c.updatedAt {
      InsertIsPlace(c, cs[1..]);
    }
  }

  /** No chat of `cs` is newer than `t`. */
  predicate AtMost(cs: seq<Chat>, t: int)
    decreases |cs|
  {
    |cs| == 0 || (cs[0].updatedAt <= t && AtMost(cs[1..], t))
  }

  lemma {:induction false} SortedAtMost(cs: seq<Chat>, t: int)
    requires NewestFirst(cs) && (|cs| == 0 || cs[0].updatedAt <= t)
    ensures AtMost(cs, t)
    decreases |cs|
  {
    if |cs| > 0 {
      SortedAtMost(cs[1..], t);
    }
  }

  lemma {:induction false} FilterAtMost(cs: seq<Chat>, keep: Chat -> bool, t: int)
    requires AtMost(cs, t)
    ensures AtMost(Filter(cs, keep), t)
    decreases |cs|
  {
    if |cs| > 0 {
      FilterAtMost(cs[1..], keep, t);
      var h := if keep(cs[0]) then [cs[0]] else [];
      var r := h + Filter(cs[1..], keep);
      assert Filter(cs, keep) == r;
      if keep(cs[0]) {
        assert r[0] == cs[0] && r[1..] == Filter(cs[1..], keep);
        assert cs[0].updatedAt <= t;
      } else {
        assert r == Filter(cs[1..], keep);
      }
    }
  }

  lemma {:induction false} FilterPlace(c: Chat, cs: seq<Chat>, keep: Chat -> bool)
    requires NewestFirst(cs)
    ensures Filter(Place(c, cs), keep) == if keep(c) then Place(c, Filter(cs, keep)) else Filter(cs, keep)
    decreases |cs|
  {
    if |cs| == 0 || cs[0].updatedAt <= c.updatedAt {
      FilterPlaceHead(c, cs, keep);
    } else {
      FilterPlace(c, cs[1..], keep);
      FilterPlaceLater(c, cs, keep);
    }
  }

  lemma FilterPlaceHead(c: Chat, cs: seq<Chat>, keep: Chat -> bool)
    requires NewestFirst(cs) && (|cs| == 0 || cs[0].updatedAt <= c.updatedAt)
    ensures Filter(Place(c, cs), keep) == if keep(c) then Place(c, Filter(cs, keep)) else Filter(cs, keep)
  {
    var ps := [c] + cs;
    assert ps[0] == c && ps[1..] == cs;
    assert Filter(ps, keep) == (if keep(c) then [c] else []) + Filter(cs, keep);
    if keep(c) {
      SortedAtMost(cs, c.updatedAt);
      FilterAtMost(cs, keep, c.updatedAt);
      var f := Filter(cs, keep);
      assert |f| == 0 || f[0].updatedAt <= c.updatedAt;
      assert Place(c, f) == [c] + f;
    }
  }

  lemma FilterPlaceLater(c: Chat, cs: seq<Chat>, keep: Chat -> bool)
    requires |cs| > 0 && cs[0].updatedAt > c.updatedAt
    requires Filter(Place(c, cs[1..]), keep)
          == if keep(c) then Place(c, Filter(cs[1..], keep)) else Filter(cs[1..], keep)
    ensures Filter(Place(c, cs), keep) == if keep(c) then Place(c, Filter(cs, keep)) else Filter(cs, keep)
  {
    var rest := Place(c, cs[1..]);
    var ps := [cs[0]] + rest;
    assert ps[0] == cs[0] && ps[1..] == rest;
    var f1 := Filter(cs[1..], keep);
    if keep(cs[0]) {
      assert Filter(ps, keep) == [cs[0]] + Filter(rest, keep);
      assert Filter(cs, keep) == [cs[0]] + f1;
      if keep(c) {
        var ks := [cs[0]] + f1;
        assert ks[0] == cs[0] && ks[1..] == f1;
        assert Place(c, ks) == [cs[0]] + Place(c, f1);
      }
    } else {
      assert Filter(ps, keep) == Filter(rest, keep);
      assert Filter(cs, keep) == f1;
    }
  }

  /** Filtering commutes with sorting. */
  lemma {:induction false} KeepSort(cs: seq<Chat>, keep: Chat -> bool)
    ensures Keep(SortByRecent(cs), keep) == SortByRecent(Keep(cs, keep))
    decreases |cs|
  {
    if |cs| > 0 {
      KeepSort(cs[1..], keep);
      KeepInsert(cs[0], SortByRecent(cs[1..]), keep);
    }
  }

  /** Deleting from a freshly loaded list shows what a reload after the
      deletion would show. */
  lemma DeleteAgreesWithReload(slot: Slot<Chat>, id: string, currentChatId: Option<string>, hasCallback: bool)
    ensures DeleteFromList(Reload(slot), slot, true, id, currentChatId, hasCallback).0
         == Reload(DeleteFromList(Reload(slot), slot, true, id, currentChatId, hasCallback).1)
  {
    KeepSort(Load(slot), ChatLacksId(id));
    assert Load(DeleteChat(slot, id)) == Keep(Load(slot), ChatLacksId(id));
  }

  // ---------------------------------------------------------------------
  // Date labels

  /** Milliseconds in a day. */
  const DayMs: int := 1000 * 60 * 60 * 24

  /** `Math.floor(diff / DayMs)`: Dafny's division by a positive divisor
      rounds down, as the floor does. */
  function Days(diff: int): (d: int)
    ensures DayMs * d <= diff < DayMs * (d + 1)
  {
    diff / DayMs
  }

  /** Which label range a difference falls in. */
  lemma DaysRange(diff: int)
    ensures 0 <= diff < DayMs <==> Days(diff) == 0
    ensures DayMs <= diff < 2 * DayMs <==> Days(diff) == 1
    ensures diff >= 7 * DayMs <==> Days(diff) >= 7
    ensures diff < 0 <==> Days(diff) < 0
  {
  }

  /** `formatDate`, with the clock reading `now` and the locale's rendering
      of the date, `localeDate`, as parameters. */
  function FormatDate(now: int, date: int, localeDate: string): (text: string)
    ensures 0 <= now - date < DayMs ==> text == "Today"
    ensures DayMs <= now - date < 2 * DayMs ==> text == "Yesterday"
    ensures now - date >= 7 * DayMs ==> text == localeDate
    ensures (now - date < 0 || 2 * DayMs <= now - date < 7 * DayMs) ==>
              text == IntToString(Days(now - date)) + " days ago"
  {
    var days := Days(now - date);
    DaysRange(now - date);
    if days == 0 then "Today"
    else if days == 1 then "Yesterday"
    else if days < 7 then IntToString(days) + " days ago"
    else localeDate
  }

  /** A date in the future gets a negative count: less than a day ahead is
      "-1 days ago". */
  lemma FutureDate(now: int, date: int, localeDate: string)
    requires 0 < date - now <= DayMs
    ensures FormatDate(now, date, localeDate) == "-1 days ago"
  {
    assert Days(now - date) == -1;
    assert NatToString(1) == "1";
  }

  // ---------------------------------------------------------------------
  // Opening a chat

  /** `${pathname.split('/')[1]}`: the first path segment, or "undefined"
      when the path has no `/`. */
  function Section(pathname: string): (s: string)
    ensures '/' !in s
  {
    var parts := Split(pathname, '/');
    if |parts| > 1 then parts[1] else "undefined"
  }

  /** `handleSelectChat`: the address navigated to. */
  function ChatPath(pathname: string, id: string): (p: string)
    ensures "/" <= p
  {
    "/" + Section(pathname) + "?chat=" + id
  }

  /** The section of `/section`. */
  lemma SectionAlone(section: string)
    requires '/' !in section
    ensures Section("/" + section) == section
  {
    SplitJoined("", '/', section);
    assert "" + ['/'] + section == "/" + section;
  }

  /** The section of `/section/rest`. */
  lemma SectionThenRest(section: string, rest: string)
    requires '/' !in section
    ensures Section("/" + section + "/" + rest) == section
  {
    var tail := section + "/" + rest;
    assert Split(tail, '/') == [section] + Split(rest, '/') by {
      SplitJoined(section, '/', rest);
    }
    assert Split("/" + tail, '/') == [""] + Split(tail, '/') by {
      SplitJoined("", '/', tail);
      assert "" + ['/'] + tail == "/" + tail;
    }
    assert "/" + section + "/" + rest == "/" + tail by {
      SeqAssoc("/", section + "/", rest);
      SeqAssoc("/", section, "/");
    }
  }

  /** The chat opens in the current section, whatever follows it in the path. */
  lemma ChatPathInSection(section: string, rest: string, id: string)
    requires '/' !in section
    ensures ChatPath("/" + section, id) == "/" + section + "?chat=" + id
    ensures ChatPath("/" + section + "/" + rest, id) == "/" + section + "?chat=" + id
  {
    SectionAlone(section);
    SectionThenRest(section, rest);
  }

  /** An empty path opens the chat under "/undefined". */
  lemma ChatPathNoSection(id: string)
    ensures ChatPath("", id) == "/undefined?chat=" + id
  {
    var u := "undefined";
    assert Section("") == u by {
      assert Split("", '/') == [""];
    }
    assert "/" + u + "?chat=" == "/undefined?chat=";
  }
}

=== FILE: chat_storage.dfy ===
/** Chat history and agent states in browser storage (lib/chat-storage.ts).
    Chats live under `superlearn_chats`, agent states under
    `superlearn_agent_states`; each key is a `Slot` of records. Dates are
    epoch milliseconds and the current instant is a parameter. */
module ChatStorage {

  import opened Basics
  import opened Js
  import opened Json
  import opened Records
  import Tools

  datatype Role = User | Assistant | System

  datatype Message = Message(
    id: string,
    role: Role,
    content: string,
    toolCalls: Option<seq<Tools.ToolCall>>,
    timestamp: int)

  datatype Chat = Chat(
    id: string,
    title: string,
    messages: seq<Message>,
    createdAt: int,
    updatedAt: int,
    metadata: Option<map<string, Value>>)

  datatype AgentStatus = Idle | Running | Paused | Completed | Failed

  datatype Checkpoint = Checkpoint(step: int, timestamp: int, state: map<string, Value>)

  datatype AgentState = AgentState(
    chatId: string,
    currentStep: int,
    totalSteps: int,
    status: AgentStatus,
    context: map<string, Value>,
    checkpoints: seq<Checkpoint>)

  // ---------------------------------------------------------------------
  // Chats

  function ChatHasId(id: string): Chat -> bool
  {
    (c: Chat) => c.id == id
  }

  function ChatLacksId(id: string): Chat -> bool
  {
    (c: Chat) => c.id != id
  }

  /** `saveChat`: replace the first chat with the same id in place, or
      append; nothing happens without a window. */
  function SaveChat(slot: Slot<Chat>, chat: Chat): (r: Slot<Chat>)
    ensures slot.NoWindow? ==> r == slot
    ensures !slot.NoWindow? ==> r.Stored? && Upserted(Load(slot), r.records, ChatHasId(chat.id), chat)
  {
    Write(slot, Upsert(Load(slot), ChatHasId(chat.id), chat))
  }

  /** `loadChat`: the first chat with that id, or null. */
  function LoadChat(slot: Slot<Chat>, id: string): (r: Option<Chat>)
    ensures r.None? <==> forall i :: 0 <= i < |Load(slot)| ==> Load(slot)[i].id != id
    ensures r.Some? ==> exists k :: FirstMatch(Load(slot), ChatHasId(id), k) && Load(slot)[k] == r.value
  {
    Find(Load(slot), ChatHasId(id))
  }

  /** A saved chat is what loading by its id gives back. */
  lemma LoadSavedChat(slot: Slot<Chat>, chat: Chat)
    requires !slot.NoWindow?
    ensures LoadChat(SaveChat(slot, chat), chat.id) == Some(chat)
  {
    FindAfterUpsert(Load(slot), ChatHasId(chat.id), chat);
  }

  /** `deleteChat`: keep exactly the chats with another id, in order. */
  function DeleteChat(slot: Slot<Chat>, id: string): (r: Slot<Chat>)
    ensures slot.NoWindow? ==> r == slot
    ensures !slot.NoWindow? ==> r == Stored(Keep(Load(slot), ChatLacksId(id)))
    ensures forall c :: c in Load(r) ==> c in Load(slot) && c.id != id
    ensures !slot.NoWindow? ==> forall c :: c in Load(slot) && c.id != id ==> c in Load(r)
  {
    Write(slot, Keep(Load(slot), ChatLacksId(id)))
  }

  /** After a delete no chat with that id is left to load. */
  lemma LoadDeletedChat(slot: Slot<Chat>, id: string)
    ensures LoadChat(DeleteChat(slot, id), id).None?
  {
  }

  /** `title || 'New Chat'`. */
  function DefaultTitle(title: Option<string>): (t: string)
    ensures t == "New Chat" <==> title.None? || title.value == "" || title.value == "New Chat"
    ensures title.Some? && title.value != "" ==> t == title.value
  {
    if title.Some? && title.value != "" then title.value else "New Chat"
  }

  /** `createNewChat`: id `chat-<now>`, no messages, both dates now. */
  function CreateNewChat(title: Option<string>, now: nat): (c: Chat)
    ensures "chat-" <= c.id && c.id[5..] == NatToString(now)
    ensures c.messages == [] && c.createdAt == now && c.updatedAt == now && c.metadata.None?
    ensures c.title == DefaultTitle(title)
  {
    Chat("chat-" + NatToString(now), DefaultTitle(title), [], now, now, None)
  }

  /** A fresh chat's id gives back the instant it was made at. */
  lemma NewChatIdRoundTrip(title: Option<string>, now: nat)
    ensures var id := CreateNewChat(title, now).id;
            forall i :: 5 <= i < |id| ==> IsDigit(id[i])
    ensures ParseNat(CreateNewChat(title, now).id[5..]) == now
  {
    ParseNatToString(now);
  }

  /** The automatic title: the first 50 characters of the text, with "..."
      added exactly when something was cut off. */
  function AutoTitle(content: string): (t: string)
    ensures |content| <= 50 ==> t == content
    ensures |content| > 50 ==> t == content[..50] + "..." && |t| == 53
    ensures content[..SliceEnd(|content|, 50)] <= t
  {
    content[..SliceEnd(|content|, 50)] + (if |content| > 50 then "..." else "")
  }

  /** The title a chat gets once `message` has been appended: rewritten only
      for a chat still called "New Chat" whose sole message is from the user. */
  function TitleAfter(c: Chat, message: Message): (t: string)
    requires |c.messages| > 0 && c.messages[|c.messages| - 1] == message
  {
    if c.title == "New Chat" && message.role == User && |c.messages| == 1
    then AutoTitle(message.content) else c.title
  }

  /** The chat `addMessageToChat` saves: the message appended, `updatedAt`
      now, and the title rule applied. */
  function WithMessage(c: Chat, message: Message, now: int): (d: Chat)
    ensures d.id == c.id && d.messages == c.messages + [message] && d.updatedAt == now
    ensures d.createdAt == c.createdAt && d.metadata == c.metadata
    ensures c.title == "New Chat" && message.role == User && c.messages == [] ==> d.title == AutoTitle(message.content)
    ensures !(c.title == "New Chat" && message.role == User && c.messages == []) ==> d.title == c.title
  {
    var appended := c.(messages := c.messages + [message], updatedAt := now);
    appended.(title := TitleAfter(appended, message))
  }

  /** `addMessageToChat`: for an unknown chat nothing happens; otherwise the
      first chat with that id gets the message appended and is saved back in
      its place. */
  function AddMessageToChat(slot: Slot<Chat>, chatId: string, message: Message, now: int): (r: Slot<Chat>)
    ensures LoadChat(slot, chatId).None? ==> r == slot
    ensures LoadChat(slot, chatId).Some? ==> exists k ::
              && FirstMatch(Load(slot), ChatHasId(chatId), k)
              && r == Stored(Load(slot)[k := WithMessage(Load(slot)[k], message, now)])
  {
    match LoadChat(slot, chatId)
    case None => slot
    case Some(c) =>
      var d := WithMessage(c, message, now);
      var k := FindIndex(Load(slot), ChatHasId(chatId)).value;
      assert Load(slot)[k] == c;
      FirstMatchUnique(Load(slot), ChatHasId(chatId), k, FindIndex(Load(slot), ChatHasId(d.id)).value);
      SaveChat(slot, d)
  }

  /** After adding, the chat's last message is the new one and every other
      chat is as it was. */
  lemma AddMessageFrame(slot: Slot<Chat>, chatId: string, message: Message, now: int)
    requires LoadChat(slot, chatId).Some?
    ensures var rs := Load(AddMessageToChat(slot, chatId, message, now));
            && |rs| == |Load(slot)|
            && LoadChat(AddMessageToChat(slot, chatId, message, now), chatId).Some?
            && var c := LoadChat(AddMessageToChat(slot, chatId, message, now), chatId).value;
               c.messages == LoadChat(slot, chatId).value.messages + [message]
    ensures forall i :: 0 <= i < |Load(slot)| && Load(slot)[i].id != chatId ==>
              Load(AddMessageToChat(slot, chatId, message, now))[i] == Load(slot)[i]
  {
    var k :| FirstMatch(Load(slot), ChatHasId(chatId), k)
      && AddMessageToChat(slot, chatId, message, now) == Stored(Load(slot)[k := WithMessage(Load(slot)[k], message, now)]);
    var rs := Load(AddMessageToChat(slot, chatId, message, now));
    assert FirstMatch(rs, ChatHasId(chatId), k);
    FirstMatchUnique(rs, ChatHasId(chatId), k, FindIndex(rs, ChatHasId(chatId)).value);
    var k0 :| FirstMatch(Load(slot), ChatHasId(chatId), k0) && Load(slot)[k0] == LoadChat(slot, chatId).value;
    FirstMatchUnique(Load(slot), ChatHasId(chatId), k, k0);
  }

  // ---------------------------------------------------------------------
  // Agent states, one per chat

  function StateOf(chatId: string): AgentState -> bool
  {
    (s: AgentState) => s.chatId == chatId
  }

  function StateNotOf(chatId: string): AgentState -> bool
  {
    (s: AgentState) => s.chatId != chatId
  }

  /** `saveAgentState`: upsert keyed by `chatId`. */
  function SaveAgentState(slot: Slot<AgentState>, state: AgentState): (r: Slot<AgentState>)
    ensures slot.NoWindow? ==> r == slot
    ensures !slot.NoWindow? ==> r.Stored? && Upserted(Load(slot), r.records, StateOf(state.chatId), state)
  {
    Write(slot, Upsert(Load(slot), StateOf(state.chatId), state))
  }

  /** `loadAgentState`: the first state of that chat, or null. */
  function LoadAgentState(slot: Slot<AgentState>, chatId: string): (r: Option<AgentState>)
    ensures r.None? <==> forall i :: 0 <= i < |Load(slot)| ==> Load(slot)[i].chatId != chatId
    ensures r.Some? ==> exists k :: FirstMatch(Load(slot), StateOf(chatId), k) && Load(slot)[k] == r.value
  {
    Find(Load(slot), StateOf(chatId))
  }

  lemma LoadSavedAgentState(slot: Slot<AgentState>, state: AgentState)
    requires !slot.NoWindow?
    ensures LoadAgentState(SaveAgentState(slot, state), state.chatId) == Some(state)
  {
    FindAfterUpsert(Load(slot), StateOf(state.chatId), state);
  }

  /** `deleteAgentState`: keep exactly the states of other chats, in order. */
  function DeleteAgentState(slot: Slot<AgentState>, chatId: string): (r: Slot<AgentState>)
    ensures slot.NoWindow? ==> r == slot
    ensures !slot.NoWindow? ==> r == Stored(Keep(Load(slot), StateNotOf(chatId)))
    ensures forall s :: s in Load(r) ==> s in Load(slot) && s.chatId != chatId
    ensures !slot.NoWindow? ==> forall s :: s in Load(slot) && s.chatId != chatId ==> s in Load(r)
  {
    Write(slot, Keep(Load(slot), StateNotOf(chatId)))
  }

  /** `createCheckpoint`: append one checkpoint of the current step and a
      copy of the context to the caller's state, then save that state. */
  function CreateCheckpoint(slot: Slot<AgentState>, state: AgentState, now: int): (r: (Slot<AgentState>, AgentState))
    ensures r.1 == state.(checkpoints := state.checkpoints + [Checkpoint(state.currentStep, now, state.context)])
    ensures r.0 == SaveAgentState(slot, r.1)
  {
    var s := state.(checkpoints := state.checkpoints + [Checkpoint(state.currentStep, now, state.context)]);
    (SaveAgentState(slot, s), s)
  }

  /** After a checkpoint the stored state of the chat carries exactly one
      more checkpoint, the last, which records the step and the context. */
  lemma CheckpointStored(slot: Slot<AgentState>, state: AgentState, now: int)
    requires !slot.NoWindow?
    ensures var r := CreateCheckpoint(slot, state, now);
            && LoadAgentState(r.0, state.chatId) == Some(r.1)
            && |r.1.checkpoints| == |state.checkpoints| + 1
            && r.1.checkpoints[..|state.checkpoints|] == state.checkpoints
            && r.1.checkpoints[|state.checkpoints|].step == state.currentStep
            && r.1.checkpoints[|state.checkpoints|].state == state.context
  {
    var r := CreateCheckpoint(slot, state, now);
    LoadSavedAgentState(slot, r.1);
  }
}

=== FILE: curriculum_route.dfy ===
/** The curriculum generation handler (app/api/generate-curriculum/route.ts):
    it validates the `input` field, asks the language model for a
    curriculum, parses the reply and checks its shape. The model call is an
    outcome given as a parameter, and so is `JSON.parse` of the reply. */
module CurriculumRoute {

  import opened Basics
  import opened Json
  import opened Http

  /** The language-model call: it throws, or it returns a text. */
  datatype Llm = LlmThrew | Replied(text: string)

  const InvalidInput := "Invalid input provided"
  const ParseFailed := "Failed to parse curriculum data"
  const InvalidStructure := "Invalid curriculum structure"
  const GenerateFailed := "Failed to generate curriculum"

  /** The `input` field is a non-empty string. */
  predicate ValidInput(req: Request)
  {
    var r := Field(req, "input");
    r.Found? && r.value.JStr? && r.value.s != ""
  }

  /** The reply has a truthy `title` and an array `topics`; its topics are
      not inspected. */
  predicate WellShaped(v: Value)
  {
    v.JObj? && "title" in v.fields && Truthy(v.fields["title"])
    && "topics" in v.fields && v.fields["topics"].JArr?
  }

  /** `POST`. `parsed` is what `JSON.parse` makes of the reply text, `None`
      when it throws. Reading `title` of a `null` reply throws, which the
      outer handler reports as a generation failure. */
  function Generate(req: Request, llm: Llm, parsed: Option<Value>): (r: Response)
    ensures r.status == 200 || r.status == 400 || r.status == 500
    ensures r.status != 200 ==> r.body.JObj? && r.body.fields.Keys == {"error"}
    ensures req.Json? && !req.body.JNull? && !ValidInput(req) ==> r == ErrorResponse(400, InvalidInput)
    ensures r.status == 400 ==> !ValidInput(req)
    ensures Field(req, "input").TypeError? ==> r == ErrorResponse(500, GenerateFailed)
    ensures ValidInput(req) && llm.LlmThrew? ==> r == ErrorResponse(500, GenerateFailed)
    ensures ValidInput(req) && llm.Replied? && parsed == Some(JNull) ==> r == ErrorResponse(500, GenerateFailed)
    ensures ValidInput(req) && llm.Replied? && parsed.None? ==> r == ErrorResponse(500, ParseFailed)
    ensures (ValidInput(req) && llm.Replied? && parsed.Some? && !parsed.value.JNull? && !WellShaped(parsed.value))
              ==> r == ErrorResponse(500, InvalidStructure)
    ensures r.status == 200 <==> ValidInput(req) && llm.Replied? && parsed.Some? && WellShaped(parsed.value)
    ensures r.status == 200 ==> r.body == parsed.value
  {
    match Field(req, "input")
    case TypeError => ErrorResponse(500, GenerateFailed)
    case _ =>
      if !ValidInput(req) then ErrorResponse(400, InvalidInput)
      else if llm.LlmThrew? then ErrorResponse(500, GenerateFailed)
      else
        match parsed
        case None => ErrorResponse(500, ParseFailed)
        case Some(v) => Validate(v)
  }

  /** The shape check on a parsed reply, and the echo. */
  function Validate(v: Value): (r: Response)
    ensures v.JNull? ==> r == ErrorResponse(500, GenerateFailed)
    ensures !v.JNull? && !WellShaped(v) ==> r == ErrorResponse(500, InvalidStructure)
    ensures WellShaped(v) ==> r == Response(200, v)
  {
    match GetProp(v, "title")
    case TypeError => ErrorResponse(500, GenerateFailed)
    case _ =>
      if !Given(GetProp(v, "title")) || !IsArray(GetProp(v, "topics"))
      then ErrorResponse(500, InvalidStructure)
      else Response(200, v)
  }

  /** `Array.isArray` of a property read. */
  predicate IsArray(r: Read)
  {
    r.Found? && r.value.JArr?
  }

  /** Every failure is reported with exactly one of the four messages,
      under the status that goes with it. */
  lemma FailureMessages(req: Request, llm: Llm, parsed: Option<Value>)
    ensures var r := Generate(req, llm, parsed);
            || r.status == 200
            || r == ErrorResponse(400, InvalidInput)
            || r == ErrorResponse(500, ParseFailed)
            || r == ErrorResponse(500, InvalidStructure)
            || r == ErrorResponse(500, GenerateFailed)
  {
  }

  /** A successful reply is echoed whatever its topics are: duplicated or
      missing topic ids are passed on. */
  lemma TopicsUnchecked(req: Request, title: string, topics: seq<Value>)
    requires ValidInput(req) && title != ""
    ensures var v := JObj(map["title" := JStr(title), "topics" := JArr(topics)]);
            Generate(req, Replied(""), Some(v)) == Response(200, v)
  {
    var v := JObj(map["title" := JStr(title), "topics" := JArr(topics)]);
    assert WellShaped(v);
  }
}

=== FILE: http.dfy ===
/** What the three route handlers share: the request body as `req.json()`
    yields it, JSON responses, the `limit` field with its default, and
    `slice(0, limit)` on what a handler lists. */
module Http {

  import opened Basics
  import opened Js
  import opened Json

  /** `await req.json()`: the parsed body, or `NotJson` when reading or
      parsing it throws. */
  datatype Request = NotJson | Json(body: Value)

  /** A JSON response: its status and its body. Key order is not modelled. */
  datatype Response = Response(status: int, body: Value)

  /** `Response.json({ error: message }, { status })`. */
  function ErrorResponse(status: int, message: string): (r: Response)
    ensures r.status == status
    ensures GetProp(r.body, "error") == Found(JStr(message))
    ensures r.body.JObj? && r.body.fields.Keys == {"error"}
  {
    Response(status, JObj(map["error" := JStr(message)]))
  }

  /** Reading `key` while destructuring the body: a missing body and a
      `null` body both throw. */
  function Field(req: Request, key: string): (r: Read)
    ensures r.TypeError? <==> req.NotJson? || req.body.JNull?
    ensures req.Json? && req.body.JObj? && key in req.body.fields ==> r == Found(req.body.fields[key])
    ensures req.Json? && !req.body.JNull? && !(req.body.JObj? && key in req.body.fields) ==> r.Undefined?
  {
    if req.NotJson? then TypeError else GetProp(req.body, key)
  }

  /** The field holds a truthy value (`if (!field)` does not reject it). */
  predicate Given(r: Read)
  {
    r.Found? && Truthy(r.value)
  }

  /** `limit = 5` under destructuring, then the integer `slice` makes of it.
      The default applies only when the field is missing; `null` and the
      booleans convert to 0 and 1. `converted` is that integer for a string,
      array or object limit, whose conversion is not modelled. */
  function Limit(req: Request, converted: int): (n: int)
    requires !Field(req, "limit").TypeError?
    ensures Field(req, "limit").Undefined? ==> n == 5
    ensures forall k :: Field(req, "limit") == Found(JNum(k)) ==> n == k
    ensures Field(req, "limit") == Found(JNull) ==> n == 0
  {
    match Field(req, "limit")
    case Found(JNum(k)) => k
    case Found(JNull) => 0
    case Found(JBool(b)) => if b then 1 else 0
    case Found(_) => converted
    case Undefined => 5
  }

  /** `list.slice(0, end)` together with `list.length`, for the two kinds of
      value that have both: arrays and strings. Calling `slice` on anything
      else throws, which is `None`. A slice is a prefix: for a non-negative
      end it keeps the first `min(end, length)` items, for a negative one it
      drops the last `-end` items (or all of them). */
  function SliceFront(list: Value, end: int): (r: Option<(Value, nat)>)
    ensures r.Some? <==> list.JArr? || list.JStr?
    ensures list.JArr? ==> r.Some? && r.value.1 == |list.items| && r.value.0.JArr?
                           && r.value.0.items <= list.items
    ensures list.JArr? && 0 <= end ==>
              |r.value.0.items| == if end < |list.items| then end else |list.items|
    ensures list.JArr? && end < 0 ==>
              |r.value.0.items| == if |list.items| + end < 0 then 0 else |list.items| + end
    ensures list.JArr? ==> r.value.0.items == list.items[..SliceEnd(|list.items|, end)]
    ensures list.JStr? ==> r.Some? && r.value.1 == |list.s| && r.value.0.JStr?
                           && r.value.0.s <= list.s
    ensures list.JStr? && 0 <= end ==>
              |r.value.0.s| == if end < |list.s| then end else |list.s|
    ensures list.JStr? && end < 0 ==>
              |r.value.0.s| == if |list.s| + end < 0 then 0 else |list.s| + end
    ensures list.JStr? ==> r.value.0.s == list.s[..SliceEnd(|list.s|, end)]
  {
    match list
    case JArr(items) => Some((JArr(items[..SliceEnd(|items|, end)]), |items|))
    case JStr(s) => Some((JStr(s[..SliceEnd(|s|, end)]), |s|))
    case _ => None
  }
}

=== FILE: js.dfy ===
/** The few JavaScript string and array primitives the application relies on,
    written out with the ECMAScript semantics that matter here. */
module Js {

  import opened Basics

  /** The regular-expression class `\w`: ASCII letters, digits and underscore. */
  predicate IsWordChar(c: char)
  {
    ('A' <= c <= 'Z') || ('a' <= c <= 'z') || ('0' <= c <= '9') || c == '_'
  }

  predicate IsDigit(c: char)
  {
    '0' <= c <= '9'
  }

  function DigitChar(d: nat): (c: char)
    requires d < 10
    ensures IsDigit(c)
  {
    "0123456789"[d]
  }

  function DigitValue(c: char): (d: nat)
    requires IsDigit(c)
    ensures d < 10 && DigitChar(d) == c
  {
    (c as int - '0' as int) as nat
  }

  /** The decimal text of a non-negative integer, as `String(n)` prints it. */
  function NatToString(n: nat): (s: string)
    ensures |s| > 0
    ensures forall i :: 0 <= i < |s| ==> IsDigit(s[i])
    ensures |s| > 1 ==> s[0] != '0'
  {
    if n < 10 then [DigitChar(n)] else NatToString(n / 10) + [DigitChar(n % 10)]
  }

  /** Reads decimal digits back into the number they denote. */
  function ParseNat(s: string): nat
    requires forall i :: 0 <= i < |s| ==> IsDigit(s[i])
  {
    if |s| == 0 then 0 else 10 * ParseNat(s[..|s| - 1]) + DigitValue(s[|s| - 1])
  }

  /** The decimal rendering loses nothing: parsing it gives the number back. */
  lemma {:induction false} ParseNatToString(n: nat)
    ensures ParseNat(NatToString(n)) == n
  {
    var s := NatToString(n);
    if n >= 10 {
      ParseNatToString(n / 10);
      assert s[..|s| - 1] == NatToString(n / 10);
      assert DigitValue(s[|s| - 1]) == n % 10;
    } else {
      assert s[..0] == [];
    }
  }

  /** The decimal text of an integer Number, as a template literal renders it. */
  function IntToString(i: int): (s: string)
    ensures |s| > 0
    ensures i < 0 <==> s[0] == '-'
  {
    if i < 0 then "-" + NatToString(-i) else NatToString(i)
  }

  /** ECMAScript WhiteSpace and LineTerminator code points, the ones `trim` removes. */
  predicate IsWhitespace(c: char)
  {
    || ('\U{0009}' <= c <= '\U{000D}')
    || c == ' ' || c == '\U{00A0}' || c == '\U{1680}'
    || ('\U{2000}' <= c <= '\U{200A}')
    || c == '\U{2028}' || c == '\U{2029}' || c == '\U{202F}' || c == '\U{205F}'
    || c == '\U{3000}' || c == '\U{FEFF}'
  }

  /** Every character of `s[i..j]` is whitespace. */
  predicate BlankBetween(s: string, i: int, j: int)
    requires 0 <= i <= j <= |s|
  {
    forall k :: i <= k < j ==> IsWhitespace(s[k])
  }

  /** Every character is whitespace: `!s.trim()` holds in JavaScript. */
  predicate IsBlank(s: string)
  {
    BlankBetween(s, 0, |s|)
  }

  /** The first position at or after `i` that holds no whitespace, or `|s|`. */
  function SkipSpace(s: string, i: nat): (k: nat)
    requires i <= |s|
    ensures i <= k <= |s| && BlankBetween(s, i, k)
    ensures k < |s| ==> !IsWhitespace(s[k])
    decreases |s| - i
  {
    if i == |s| || !IsWhitespace(s[i]) then i else SkipSpace(s, i + 1)
  }

  /** The least end `k`, not below `lo`, such that `s[k..j]` is whitespace. */
  function SkipSpaceBack(s: string, lo: nat, j: nat): (k: nat)
    requires lo <= j <= |s|
    ensures lo <= k <= j && BlankBetween(s, k, j)
    ensures lo < k ==> !IsWhitespace(s[k - 1])
    decreases j
  {
    if j == lo || !IsWhitespace(s[j - 1]) then j else SkipSpaceBack(s, lo, j - 1)
  }

  /** `s.trim()`: `s[a..b]` where `a` is the first and `b - 1` the last
      position holding no whitespace; everything outside is whitespace, and
      nothing is left exactly when the text is all whitespace. */
  function Trim(s: string): (r: string)
    ensures exists a, b ::
              && 0 <= a <= b <= |s| && r == s[a..b]
              && BlankBetween(s, 0, a) && BlankBetween(s, b, |s|)
              && (a < b ==> !IsWhitespace(s[a]) && !IsWhitespace(s[b - 1]))
    ensures r == "" <==> IsBlank(s)
  {
    var a := SkipSpace(s, 0);
    var b := SkipSpaceBack(s, a, |s|);
    assert a < b ==> a < |s| && !IsWhitespace(s[a]);
    s[a..b]
  }

  /** `s.split(sep)` for a one-character separator. */
  function Split(s: string, sep: char): (parts: seq<string>)
    ensures |parts| > 0
    ensures forall i :: 0 <= i < |parts| ==> sep !in parts[i]
    decreases |s|
  {
    if sep in s then
      var k := IndexOf(s, sep);
      [s[..k]] + Split(s[k + 1..], sep)
    else
      [s]
  }

  /** Splitting a text made of separated pieces gives the pieces back. */
  lemma {:induction false} SplitJoined(a: string, sep: char, b: string)
    requires sep !in a
    ensures Split(a + [sep] + b, sep) == [a] + Split(b, sep)
  {
    var s := a + [sep] + b;
    assert s[|a|] == sep;
    var k := IndexOf(s, sep);
    assert k == |a|;
    assert s[..k] == a;
    assert s[k + 1..] == b;
  }

  /** The end index `xs.slice(0, end)` stops at, for an integer `end`:
      negative values count back from the length, large values are clamped. */
  function SliceEnd(len: nat, end: int): (k: nat)
    ensures k <= len
    ensures 0 <= end ==> k == if end < len then end else len
    ensures end < 0 ==> k == if len + end < 0 then 0 else len + end
  {
    if end < 0 then (if len + end < 0 then 0 else len + end)
    else if end < len then end else len
  }
}

=== FILE: json.dfy ===
/** Parsed JSON values as the request handlers see them, with the three
    JavaScript behaviours the handlers depend on: truthiness, property reads
    (which throw on `null`) and conversion to a string. Numbers are integers. */
module Json {

  import opened Basics
  import opened Js

  datatype Value =
    | JNull
    | JBool(b: bool)
    | JNum(n: int)
    | JStr(s: string)
    | JArr(items: seq<Value>)
    | JObj(fields: map<string, Value>)

  /** JavaScript truthiness: `null`, `false`, `0` and `""` are falsy. */
  predicate Truthy(v: Value)
  {
    match v
    case JNull => false
    case JBool(b) => b
    case JNum(n) => n != 0
    case JStr(s) => s != ""
    case JArr(_) => true
    case JObj(_) => true
  }

  /** What reading `v.key` yields: a `TypeError` on `null`, `undefined`
      when the key is missing, or the stored value. Only plain data keys
      are read by the handlers, so prototype properties play no part. */
  datatype Read = TypeError | Undefined | Found(value: Value)

  function GetProp(v: Value, key: string): (r: Read)
    ensures r.TypeError? <==> v.JNull?
    ensures r.Found? <==> v.JObj? && key in v.fields
    ensures r.Found? ==> r.value == v.fields[key]
  {
    match v
    case JNull => TypeError
    case JObj(m) => if key in m then Found(m[key]) else Undefined
    case _ => Undefined
  }

  /** `String(v)`, also what a template literal `${v}` inserts: arrays join
      their elements with commas (with `null` shown as nothing), plain objects
      print as "[object Object]". */
  function ToJsString(v: Value): string
  {
    match v
    case JNull => "null"
    case JBool(b) => if b then "true" else "false"
    case JNum(n) => IntToString(n)
    case JStr(s) => s
    case JArr(items) =>
      JoinWithCommas(seq(|items|, i requires 0 <= i < |items| =>
        if items[i].JNull? then "" else ToJsString(items[i])))
    case JObj(_) => "[object Object]"
  }

  /** `parts.join(",")`. */
  function JoinWithCommas(parts: seq<string>): (s: string)
    ensures |parts| == 0 ==> s == ""
    ensures |parts| == 1 ==> s == parts[0]
  {
    if |parts| == 0 then ""
    else if |parts| == 1 then parts[0]
    else JoinWithCommas(parts[..|parts| - 1]) + "," + parts[|parts| - 1]
  }
}

=== FILE: prompt_editor.dfy ===
/** The state updates of the prompt editor (components/prompt-editor.tsx):
    the initial template list, re-keying the variable values when the
    template text changes, selecting, saving and deleting templates, and the
    rule that enables "Use this prompt". Rendering, the menu toggle, the
    alert and the confirmation dialog are not modelled; the dialog's answer
    is a parameter, and so are the clock readings. */
module PromptEditor {

  import opened Basics
  import opened Js
  import opened Records
  import opened PromptTemplates

  /** The component's state (the `showTemplates` menu flag is left out). */
  datatype Editor = Editor(
    templates: seq<PromptTemplate>,
    selected: Option<PromptTemplate>,
    text: string,
    values: map<string, string>,
    name: string,
    editing: bool)

  /** The state of the first render: `initialValue || explain.template`,
      an empty list, no selection and no variable values. */
  function Initial(initialValue: Option<string>, loadedAt: int): (e: Editor)
    ensures e.templates == [] && e.selected.None? && e.values == map[] && e.name == "" && !e.editing
    ensures e.text == (if initialValue.Some? && initialValue.value != "" then initialValue.value
                       else Explain(loadedAt).template)
  {
    var text := if initialValue.Some? && initialValue.value != "" then initialValue.value
                else Explain(loadedAt).template;
    Editor([], None, text, map[], "", false)
  }

  /** The list shows the built-ins and the stored templates, each as often
      as it occurs in either. */
  ghost predicate Mirrors(e: Editor, slot: Slot<PromptTemplate>, loadedAt: int)
  {
    multiset(e.templates) == multiset(Defaults(loadedAt)) + multiset(Load(slot))
  }

  /** The mount effect: the built-ins in registration order, then the stored
      templates; `explain` becomes the selection. The text and the values
      are left as they were. */
  function Mount(e: Editor, slot: Slot<PromptTemplate>, loadedAt: int): (r: Editor)
    ensures |r.templates| == 3 + |Load(slot)|
    ensures r.templates[..3] == Defaults(loadedAt) && r.templates[3..] == Load(slot)
    ensures Mirrors(r, slot, loadedAt)
    ensures r.selected == Some(Explain(loadedAt))
    ensures r.text == e.text && r.values == e.values && r.name == e.name && r.editing == e.editing
  {
    var ts := Defaults(loadedAt) + Load(slot);
    assert ts[..3] == Defaults(loadedAt) && ts[3..] == Load(slot);
    e.(templates := ts, selected := Some(Explain(loadedAt)))
  }

  /** The built-ins come first in a freshly mounted list, and when only
      editor-made templates are stored they are exactly its defaults. */
  lemma MountedDefaults(e: Editor, slot: Slot<PromptTemplate>, loadedAt: int)
    requires forall t :: t in Load(slot) ==> !IsDefault(t)
    ensures Keep(Mount(e, slot, loadedAt).templates, IsDefault) == Defaults(loadedAt)
  {
    var ds, ls := Defaults(loadedAt), Load(slot);
    var ms := Mount(e, slot, loadedAt).templates;
    assert ms == ds + ls by {
      assert ms == ms[..3] + ms[3..];
    }
    assert Keep(ds, IsDefault) == ds by {
      assert IsDefault(ds[0]) && IsDefault(ds[1]) && IsDefault(ds[2]);
      KeepAll(ds, IsDefault);
    }
    assert Keep(ls, IsDefault) == [] by {
      forall i | 0 <= i < |ls|
        ensures !IsDefault(ls[i])
      {
        assert ls[i] in ls;
      }
      KeepNothing(ls, IsDefault);
    }
    KeepAppend(ds, ls, IsDefault);
    assert ds + [] == ds;
  }

  // ---------------------------------------------------------------------
  // Variable values

  /** The new value map of `handleTemplateChange`: one key per variable,
      holding the old value (`values[v] || ""`, and the empty old value is
      `""` anyway), or `""` for a new variable. */
  function Rekey(values: map<string, string>, vars: seq<string>): (r: map<string, string>)
    ensures forall v :: v in r <==> v in vars
    ensures forall v :: v in vars && v in values ==> r[v] == values[v]
    ensures forall v :: v in vars && v !in values ==> r[v] == ""
  {
    map v | v in vars :: if Filled(values, v) then values[v] else ""
  }

  /** Re-keying for the same variables a second time changes nothing. */
  lemma RekeyIdempotent(values: map<string, string>, vars: seq<string>)
    ensures Rekey(Rekey(values, vars), vars) == Rekey(values, vars)
  {
    var r := Rekey(values, vars);
    assert Rekey(r, vars).Keys == r.Keys;
  }

  /** `handleTemplateChange`: the text is replaced and the value map
      re-keyed to exactly the variables of the new text. */
  function ChangeTemplate(e: Editor, text: string): (r: Editor)
    ensures r.text == text
    ensures forall v :: v in r.values <==> v in ExtractVariables(text)
    ensures forall v :: v in r.values && v in e.values ==> r.values[v] == e.values[v]
    ensures forall v :: v in r.values && v !in e.values ==> r.values[v] == ""
    ensures r.templates == e.templates && r.selected == e.selected
    ensures r.name == e.name && r.editing == e.editing
  {
    e.(text := text, values := Rekey(e.values, ExtractVariables(text)))
  }

  /** `handleSelectTemplate`: the template becomes the selection and its
      text is loaded as by a template change. */
  function SelectTemplate(e: Editor, t: PromptTemplate): (r: Editor)
    ensures r.selected == Some(t) && r.text == t.template
    ensures forall v :: v in r.values <==> v in ExtractVariables(t.template)
    ensures forall v :: v in r.values && v in e.values ==> r.values[v] == e.values[v]
    ensures r.templates == e.templates && r.name == e.name && r.editing == e.editing
  {
    ChangeTemplate(e, t.template).(selected := Some(t))
  }

  /** Selecting a built-in leaves exactly one value, for `topic`. */
  lemma SelectBuiltin(e: Editor, t: PromptTemplate, loadedAt: int)
    requires t in Defaults(loadedAt)
    ensures SelectTemplate(e, t).values.Keys == {"topic"}
  {
    DefaultWellFormed(t, loadedAt);
    SelectKeys(e, t, "topic");
  }

  lemma SelectKeys(e: Editor, t: PromptTemplate, v: string)
    requires ExtractVariables(t.template) == [v]
    ensures SelectTemplate(e, t).values.Keys == {v}
  {
    var r := SelectTemplate(e, t);
    assert forall u :: u in r.values <==> u == v;
  }

  // ---------------------------------------------------------------------
  // Saving and deleting

  /** The template `handleSaveTemplate` builds at clock reading `now`
      (the `Date.now()` of the id) and instant `at` (both dates). */
  function NewTemplate(e: Editor, now: nat, at: int): (t: PromptTemplate)
    ensures CustomId(t.id) && t.id[7..] == NatToString(now)
    ensures t.name == e.name && t.template == e.text && !IsDefault(t)
    ensures t.variables == ExtractVariables(e.text)
  {
    var id := "custom-" + NatToString(now);
    assert id[7..] == NatToString(now);
    PromptTemplate(id, e.name, e.text, None, ExtractVariables(e.text), at, at, Some(false))
  }

  /** Templates made at different clock readings get different ids. */
  lemma NewIdsDistinct(e: Editor, now: nat, at: int, e': Editor, now': nat, at': int)
    requires now != now'
    ensures NewTemplate(e, now, at).id != NewTemplate(e', now', at').id
  {
    ParseNatToString(now);
    ParseNatToString(now');
  }

  predicate IsCustom(t: PromptTemplate)
  {
    !IsDefault(t)
  }

  /** `handleSaveTemplate`. A name that is blank after trimming changes
      nothing. Otherwise the new template is persisted, selected, and listed
      after the editor-made templates and before the built-ins; the name is
      cleared and editing ends. */
  function SaveTemplate(e: Editor, slot: Slot<PromptTemplate>, now: nat, at: int): (r: (Editor, Slot<PromptTemplate>))
    ensures IsBlank(e.name) ==> r == (e, slot)
    ensures !IsBlank(e.name) ==>
              var t := NewTemplate(e, now, at);
              && r.1 == SavePromptTemplate(slot, t)
              && r.0.selected == Some(t) && r.0.name == "" && !r.0.editing
              && r.0.text == e.text && r.0.values == e.values
              && multiset(r.0.templates) == multiset(e.templates) + multiset{t}
              && r.0.templates == Keep(e.templates, IsCustom) + [t] + Keep(e.templates, IsDefault)
              && exists k ::
                   && 0 <= k < |r.0.templates| && r.0.templates[k] == t
                   && (forall i :: 0 <= i < k ==> !IsDefault(r.0.templates[i]))
                   && (forall i :: k < i < |r.0.templates| ==> IsDefault(r.0.templates[i]))
  {
    if Trim(e.name) == "" then (e, slot)
    else
      var t := NewTemplate(e, now, at);
      var customs, builtins := Keep(e.templates, IsCustom), Keep(e.templates, IsDefault);
      var ts := customs + [t] + builtins;
      SaveOrder(customs, t, builtins, ts);
      KeepSplit(e.templates, t);
      (e.(templates := ts, selected := Some(t), name := "", editing := false),
       SavePromptTemplate(slot, t))
  }

  lemma SaveOrder(customs: seq<PromptTemplate>, t: PromptTemplate, builtins: seq<PromptTemplate>, ts: seq<PromptTemplate>)
    requires forall u :: u in customs ==> IsCustom(u)
    requires forall u :: u in builtins ==> IsDefault(u)
    requires ts == customs + [t] + builtins
    ensures ts[|customs|] == t
    ensures forall i :: 0 <= i < |customs| ==> !IsDefault(ts[i])
    ensures forall i :: |customs| < i < |ts| ==> IsDefault(ts[i])
  {
    forall i | 0 <= i < |customs|
      ensures !IsDefault(ts[i])
    {
      assert ts[i] == customs[i] && customs[i] in customs;
    }
    forall i | |customs| < i < |ts|
      ensures IsDefault(ts[i])
    {
      assert ts[i] == builtins[i - |customs| - 1] && builtins[i - |customs| - 1] in builtins;
    }
  }

  /** Listing the editor-made templates, one new template and the built-ins
      loses and invents nothing. */
  lemma KeepSplit(ts: seq<PromptTemplate>, t: PromptTemplate)
    ensures multiset(Keep(ts, IsCustom) + [t] + Keep(ts, IsDefault)) == multiset(ts) + multiset{t}
  {
    forall u
      ensures multiset(Keep(ts, IsCustom) + [t] + Keep(ts, IsDefault))[u] == (multiset(ts) + multiset{t})[u]
    {
      KeepCount(ts, IsCustom, u);
      KeepCount(ts, IsDefault, u);
    }
  }

  /** `handleDeleteTemplate`. Unconfirmed, nothing happens. Confirmed, the
      id is deleted from storage and from the list, and when it was the
      selection the selection and the text revert to `explain`; the value
      map is not re-keyed. */
  function DeleteTemplate(e: Editor, slot: Slot<PromptTemplate>, confirmed: bool, id: string, loadedAt: int): (r: (Editor, Slot<PromptTemplate>))
    ensures !confirmed ==> r == (e, slot)
    ensures confirmed ==> r.1 == DeletePromptTemplate(slot, id)
    ensures confirmed ==> forall t :: t in r.0.templates <==> t in e.templates && t.id != id
    ensures confirmed ==> forall t :: multiset(r.0.templates)[t] == if t.id == id then 0 else multiset(e.templates)[t]
    ensures confirmed ==> r.0.templates == Keep(e.templates, LacksId(id))
    ensures confirmed && e.selected.Some? && e.selected.value.id == id ==>
              r.0.selected == Some(Explain(loadedAt)) && r.0.text == Explain(loadedAt).template
    ensures confirmed && !(e.selected.Some? && e.selected.value.id == id) ==>
              r.0.selected == e.selected && r.0.text == e.text
    ensures r.0.values == e.values && r.0.name == e.name && r.0.editing == e.editing
  {
    if !confirmed then (e, slot)
    else
      var ts := Keep(e.templates, LacksId(id));
      assert forall t :: multiset(ts)[t] == if t.id == id then 0 else multiset(e.templates)[t] by {
        forall t
          ensures multiset(ts)[t] == if t.id == id then 0 else multiset(e.templates)[t]
        {
          KeepCount(e.templates, LacksId(id), t);
        }
      }
      var e' := if e.selected.Some? && e.selected.value.id == id
                then e.(templates := ts, selected := Some(Explain(loadedAt)), text := Explain(loadedAt).template)
                else e.(templates := ts);
      (e', DeletePromptTemplate(slot, id))
  }

  /** Saving keeps the list equal to built-ins plus storage, as long as the
      page has a window and the new id is not stored yet. */
  lemma SaveKeepsMirror(e: Editor, slot: Slot<PromptTemplate>, now: nat, at: int, loadedAt: int)
    requires Mirrors(e, slot, loadedAt)
    requires !slot.NoWindow?
    requires forall t :: t in Load(slot) ==> t.id != NewTemplate(e, now, at).id
    ensures Mirrors(SaveTemplate(e, slot, now, at).0, SaveTemplate(e, slot, now, at).1, loadedAt)
  {
    if !IsBlank(e.name) {
      var t := NewTemplate(e, now, at);
      var rs := Load(slot);
      assert !AnyMatch(rs, HasId(t.id)) by {
        forall i | 0 <= i < |rs|
          ensures !HasId(t.id)(rs[i])
        {
          assert rs[i] in rs;
        }
      }
      assert Load(SavePromptTemplate(slot, t)) == rs + [t];
    }
  }

  /** Deleting a template that is not a built-in keeps the list equal to
      built-ins plus storage. (The list offers deletion only for templates
      that are not defaults.) */
  lemma DeleteKeepsMirror(e: Editor, slot: Slot<PromptTemplate>, confirmed: bool, id: string, loadedAt: int)
    requires Mirrors(e, slot, loadedAt)
    requires id !in DefaultIds()
    ensures Mirrors(DeleteTemplate(e, slot, confirmed, id, loadedAt).0,
                    DeleteTemplate(e, slot, confirmed, id, loadedAt).1, loadedAt)
  {
    if confirmed {
      var r := DeleteTemplate(e, slot, confirmed, id, loadedAt);
      forall t: PromptTemplate | t.id == id
        ensures multiset(Defaults(loadedAt))[t] == 0
      {
        NotBuiltin(t, loadedAt);
      }
      DeleteLoads(slot, id);
      CountsAfterDelete(e.templates, Defaults(loadedAt), Load(slot), r.0.templates, id);
    }
  }

  /** The counting step of `DeleteKeepsMirror`, on plain sequences. */
  lemma CountsAfterDelete(ts: seq<PromptTemplate>, ds: seq<PromptTemplate>, rs: seq<PromptTemplate>,
                          kept: seq<PromptTemplate>, id: string)
    requires multiset(ts) == multiset(ds) + multiset(rs)
    requires forall t :: multiset(kept)[t] == if t.id == id then 0 else multiset(ts)[t]
    requires forall t: PromptTemplate :: t.id == id ==> multiset(ds)[t] == 0
    ensures multiset(kept) == multiset(ds) + multiset(Keep(rs, LacksId(id)))
  {
    forall t
      ensures multiset(kept)[t] == (multiset(ds) + multiset(Keep(rs, LacksId(id))))[t]
    {
      KeepCount(rs, LacksId(id), t);
    }
  }

  lemma DeleteLoads(slot: Slot<PromptTemplate>, id: string)
    ensures Load(DeletePromptTemplate(slot, id)) == Keep(Load(slot), LacksId(id))
  {
  }

  lemma NotBuiltin(t: PromptTemplate, loadedAt: int)
    requires t.id !in DefaultIds()
    ensures multiset(Defaults(loadedAt))[t] == 0
  {
    DefaultIdsDistinct(loadedAt);
  }

  // ---------------------------------------------------------------------
  // "Use this prompt"

  /** The enabling rule as written: every value in the map is non-blank
      after trimming. It never looks at the template's variables, so an
      empty map enables the button. */
  function SubmitEnabledAsWritten(values: map<string, string>): (r: bool)
    ensures r <==> forall k :: k in values ==> !IsBlank(values[k])
  {
    forall k | k in values :: Trim(values[k]) != ""
  }

  /** The evidently intended rule: every variable of the text has a value
      that is non-blank after trimming. */
  predicate SubmitEnabled(text: string, values: map<string, string>)
  {
    forall v :: v in ExtractVariables(text) ==> v in values && !IsBlank(values[v])
  }

  /** `handleSubmit` behind the intended rule: the filled prompt and the
      values, with every variable of the text substituted. */
  function Submit(e: Editor): (r: Option<(string, map<string, string>)>)
    ensures r.Some? <==> SubmitEnabled(e.text, e.values)
    ensures r.Some? ==> r.value.1 == e.values
    ensures r.Some? ==> r.value.0 == FillTemplate(e.text, e.values)
    ensures r.Some? ==> forall v :: v in ExtractVariables(e.text) ==>
                          Filled(e.values, v) && Occurs(e.values[v], r.value.0)
  {
    if SubmitEnabled(e.text, e.values) then
      assert forall v :: v in ExtractVariables(e.text) ==> Filled(e.values, v);
      Some((FillTemplate(e.text, e.values), e.values))
    else None
  }

  /** The two rules agree once the map has been re-keyed to the text. */
  lemma SubmitRulesAgreeAfterChange(e: Editor, text: string)
    ensures SubmitEnabledAsWritten(ChangeTemplate(e, text).values)
        <==> SubmitEnabled(text, ChangeTemplate(e, text).values)
  {
  }

  /** On the first render, before any template change, the rule as written
      enables the button for the `explain` text although `topic` has no
      value, and the submitted prompt still holds `{{topic}}`. */
  lemma InitialSubmitAsWritten(slot: Slot<PromptTemplate>, loadedAt: int)
    ensures var e := Mount(Initial(None, loadedAt), slot, loadedAt);
            && SubmitEnabledAsWritten(e.values)
            && !SubmitEnabled(e.text, e.values)
            && FillTemplate(e.text, e.values) == e.text
            && Occurs(Marker("topic"), FillTemplate(e.text, e.values))
  {
    var e := Mount(Initial(None, loadedAt), slot, loadedAt);
    assert e.text == ExplainText(InSimpleTerms);
    ExplainVariables();
    assert "topic" in ExtractVariables(e.text);
  }
}

=== FILE: prompt_templates.dfy ===
/** The prompt-template micro-language and the template store
    (lib/prompt-templates.ts).

    A template is text with placeholders `{{name}}`, `name` made of the
    regular-expression class `\w`. Both `extractVariables` and
    `fillTemplate` make the same global, left-to-right, non-overlapping
    scan for `/\{\{(\w+)\}\}/g`; here that scan is `Scan`, which cuts the
    template into single literal characters and placeholders, and both
    operations are defined over it. */
module PromptTemplates {

  import opened Basics
  import opened Js
  import opened Records

  datatype PromptTemplate = PromptTemplate(
    id: string,
    name: string,
    template: string,
    description: Option<string>,
    variables: seq<string>,
    createdAt: int,
    updatedAt: int,
    isDefault: Option<bool>)

  /** `t.isDefault` is truthy; an absent flag counts as false. */
  predicate IsDefault(t: PromptTemplate)
  {
    t.isDefault == Some(true)
  }

  // ---------------------------------------------------------------------
  // The scanner

  /** A placeholder name: one or more `\w` characters. */
  predicate IsName(n: string)
  {
    |n| > 0 && forall i :: 0 <= i < |n| ==> IsWordChar(n[i])
  }

  /** The literal text of the placeholder for `name`. */
  function Marker(name: string): (m: string)
    ensures |m| == |name| + 4
  {
    "{{" + name + "}}"
  }

  /** Length of the longest run of `\w` characters starting `s` (the greedy `\w+`). */
  function WordPrefix(s: string): (k: nat)
    ensures k <= |s|
    ensures forall i :: 0 <= i < k ==> IsWordChar(s[i])
    ensures k < |s| ==> !IsWordChar(s[k])
  {
    if |s| == 0 || !IsWordChar(s[0]) then 0 else 1 + WordPrefix(s[1..])
  }

  /** The regular expression tried at the start of `s`: the captured name,
      or `None` when no placeholder starts there. */
  function MarkerAt(s: string): (r: Option<string>)
    ensures r.Some? ==> IsName(r.value) && Marker(r.value) <= s
  {
    if 2 <= |s| && s[0] == '{' && s[1] == '{' then
      var k := WordPrefix(s[2..]);
      if 0 < k && k + 4 <= |s| && s[k + 2] == '}' && s[k + 3] == '}' then
        assert s[..k + 4] == Marker(s[2..k + 2]);
        Some(s[2..k + 2])
      else None
    else None
  }

  /** The match at the head is exactly the regular expression's meaning:
      `s` starts with `{{n}}` for a name `n`. Such an `n` is unique. */
  lemma MarkerAtMatches(s: string, n: string)
    ensures MarkerAt(s) == Some(n) <==> IsName(n) && Marker(n) <= s
  {
    if IsName(n) && Marker(n) <= s {
      var m := Marker(n);
      assert s[0] == m[0] && s[1] == m[1];
      var t := s[2..];
      assert forall i :: 0 <= i < |n| ==> t[i] == m[i + 2] == n[i];
      assert t[|n|] == m[|n| + 2] == '}';
      assert s[|n| + 3] == m[|n| + 3] == '}';
      var k := WordPrefix(t);
      assert k == |n|;
      assert s[2..k + 2] == n;
    }
  }

  /** One piece of a scanned template: a literal character or a placeholder. */
  datatype Piece = Text(c: char) | Placeholder(name: string)

  function PieceText(p: Piece): string
  {
    match p
    case Text(c) => [c]
    case Placeholder(n) => Marker(n)
  }

  /** The text a sequence of pieces stands for. */
  function Flatten(ps: seq<Piece>): string
  {
    if |ps| == 0 then "" else PieceText(ps[0]) + Flatten(ps[1..])
  }

  /** The global left-to-right scan: at each position take the placeholder
      that starts there, if any, and continue after it; otherwise keep one
      literal character and move on by one. */
  function Scan(s: string): (ps: seq<Piece>)
    ensures Flatten(ps) == s
    ensures forall i :: 0 <= i < |ps| && ps[i].Placeholder? ==> IsName(ps[i].name)
    decreases |s|
  {
    if |s| == 0 then []
    else
      match MarkerAt(s)
      case Some(n) =>
        var rest := Scan(s[|n| + 4..]);
        ScanStep(Placeholder(n), s, |n| + 4, rest);
        [Placeholder(n)] + rest
      case None =>
        var rest := Scan(s[1..]);
        ScanStep(Text(s[0]), s, 1, rest);
        [Text(s[0])] + rest
  }

  /** One step of the scan: a piece standing for the first `k` characters of
      `s`, followed by a decomposition of the rest. */
  lemma ScanStep(p: Piece, s: string, k: nat, rest: seq<Piece>)
    requires k <= |s| && PieceText(p) == s[..k]
    requires p.Placeholder? ==> IsName(p.name)
    requires Flatten(rest) == s[k..]
    requires forall i :: 0 <= i < |rest| && rest[i].Placeholder? ==> IsName(rest[i].name)
    ensures Flatten([p] + rest) == s
    ensures forall i :: 0 <= i < |[p] + rest| && ([p] + rest)[i].Placeholder? ==> IsName(([p] + rest)[i].name)
  {
    var ps := [p] + rest;
    assert ps[1..] == rest;
    assert s == s[..k] + s[k..];
    assert forall i :: 1 <= i < |ps| ==> ps[i] == rest[i - 1];
  }

  /** A decomposition the scan itself would produce: every literal piece sits
      where no placeholder starts, and every placeholder has a valid name. */
  ghost predicate Canonical(ps: seq<Piece>)
    decreases |ps|
  {
    |ps| == 0 ||
    ((match ps[0]
      case Text(_) => MarkerAt(Flatten(ps)).None?
      case Placeholder(n) => IsName(n))
     && Canonical(ps[1..]))
  }

  lemma CanonicalCons(p: Piece, ps: seq<Piece>)
    requires Canonical(ps)
    requires p.Text? ==> MarkerAt(PieceText(p) + Flatten(ps)).None?
    requires p.Placeholder? ==> IsName(p.name)
    ensures Canonical([p] + ps)
  {
    assert ([p] + ps)[1..] == ps;
  }

  /** The scan is the leftmost decomposition. */
  lemma {:induction false} ScanCanonical(s: string)
    ensures Canonical(Scan(s))
    decreases |s|
  {
    if |s| > 0 {
      match MarkerAt(s)
      case Some(n) =>
        ScanCanonical(s[|n| + 4..]);
        CanonicalCons(Placeholder(n), Scan(s[|n| + 4..]));
      case None =>
        ScanCanonical(s[1..]);
        assert PieceText(Text(s[0])) + Flatten(Scan(s[1..])) == s;
        CanonicalCons(Text(s[0]), Scan(s[1..]));
    }
  }

  /** Scanning the text of a canonical decomposition gives it back, so the
      scan is the only canonical decomposition of a template. */
  lemma {:induction false} FlattenScan(ps: seq<Piece>)
    requires Canonical(ps)
    ensures Scan(Flatten(ps)) == ps
    decreases |ps|
  {
    if |ps| > 0 {
      var s := Flatten(ps);
      var rest := Flatten(ps[1..]);
      assert s == PieceText(ps[0]) + rest;
      FlattenScan(ps[1..]);
      match ps[0]
      case Text(c) =>
        assert MarkerAt(s).None?;
        assert s[1..] == rest;
        assert Scan(s) == [Text(c)] + Scan(rest);
      case Placeholder(n) =>
        assert Marker(n) <= s;
        MarkerAtMatches(s, n);
        assert s[|n| + 4..] == rest;
        assert Scan(s) == [Placeholder(n)] + Scan(rest);
    }
  }

  // ---------------------------------------------------------------------
  // Pieces built from literal text

  /** The literal pieces of `a`. */
  function Texts(a: string): (ps: seq<Piece>)
    ensures |ps| == |a|
    ensures forall i :: 0 <= i < |a| ==> ps[i] == Text(a[i])
  {
    seq(|a|, i requires 0 <= i < |a| => Text(a[i]))
  }

  lemma {:induction false} FlattenAppend(ps: seq<Piece>, qs: seq<Piece>)
    ensures Flatten(ps + qs) == Flatten(ps) + Flatten(qs)
    decreases |ps|
  {
    if |ps| == 0 {
      assert ps + qs == qs;
    } else {
      assert (ps + qs)[1..] == ps[1..] + qs;
      FlattenAppend(ps[1..], qs);
    }
  }

  lemma {:induction false} FlattenTexts(a: string)
    ensures Flatten(Texts(a)) == a
    decreases |a|
  {
    if |a| > 0 {
      assert Texts(a)[1..] == Texts(a[1..]);
      FlattenTexts(a[1..]);
    }
  }

  /** Literal pieces containing no `{` never start a placeholder, so they can
      precede any canonical decomposition. */
  lemma {:induction false} CanonicalTexts(a: string, ps: seq<Piece>)
    requires '{' !in a
    requires Canonical(ps)
    ensures Canonical(Texts(a) + ps)
    decreases |a|
  {
    if |a| > 0 {
      CanonicalTexts(a[1..], ps);
      assert Texts(a) + ps == [Text(a[0])] + (Texts(a[1..]) + ps);
      CanonicalCons(Text(a[0]), Texts(a[1..]) + ps);
    } else {
      assert Texts(a) + ps == ps;
    }
  }

  // ---------------------------------------------------------------------
  // extractVariables

  /** The placeholder names of a decomposition, in order, repeats included. */
  function Names(ps: seq<Piece>): (ns: seq<string>)
    ensures |ns| <= |ps|
  {
    if |ps| == 0 then []
    else if ps[0].Placeholder? then [ps[0].name] + Names(ps[1..])
    else Names(ps[1..])
  }

  lemma {:induction false} NamesAppend(ps: seq<Piece>, qs: seq<Piece>)
    ensures Names(ps + qs) == Names(ps) + Names(qs)
    decreases |ps|
  {
    if |ps| == 0 {
      assert ps + qs == qs;
    } else {
      assert (ps + qs)[1..] == ps[1..] + qs;
      NamesAppend(ps[1..], qs);
    }
  }

  lemma {:induction false} NamesTexts(a: string)
    ensures Names(Texts(a)) == []
    decreases |a|
  {
    if |a| > 0 {
      assert Texts(a)[1..] == Texts(a[1..]);
      NamesTexts(a[1..]);
    }
  }

  /** Every name the scan reports is a real occurrence of its marker. */
  lemma {:induction false} NamesOccur(ps: seq<Piece>, n: string)
    requires n in Names(ps)
    ensures Occurs(Marker(n), Flatten(ps))
    decreases |ps|
  {
    if ps[0].Placeholder? && ps[0].name == n {
      assert Flatten(ps) == Marker(n) + Flatten(ps[1..]);
      OccursInMiddle([], Marker(n), Flatten(ps[1..]));
      assert [] + Marker(n) + Flatten(ps[1..]) == Flatten(ps);
    } else {
      NamesOccur(ps[1..], n);
      OccursInSuffix(Marker(n), PieceText(ps[0]), Flatten(ps[1..]));
    }
  }

  /** Keeps the first occurrence of each element, in order. This is the
      source's loop: push each match unless `variables.includes` it. */
  function Dedup(xs: seq<string>): (ds: seq<string>)
    ensures NoDuplicates(ds)
    ensures forall x :: x in ds <==> x in xs
    ensures forall i, j :: 0 <= i < j < |ds| ==> IndexOf(xs, ds[i]) < IndexOf(xs, ds[j])
  {
    if |xs| == 0 then []
    else
      var init := xs[..|xs| - 1];
      var x := xs[|xs| - 1];
      assert xs == init + [x];
      var d := Dedup(init);
      IndexOfAppendAll(init, x);
      if x in d then d
      else
        IndexOfAppendNew(init, x);
        d + [x]
  }

  lemma IndexOfAppendAll(xs: seq<string>, x: string)
    ensures forall y :: y in xs ==> IndexOf(xs + [x], y) == IndexOf(xs, y)
  {
    forall y | y in xs
      ensures IndexOf(xs + [x], y) == IndexOf(xs, y)
    {
      IndexOfAppend(xs, x, y);
    }
  }

  /** Every name of a scan is a valid name whose marker occurs in the text. */
  lemma ScannedNames(s: string)
    ensures forall v :: v in Names(Scan(s)) ==> IsName(v) && Occurs(Marker(v), s)
  {
    forall v | v in Names(Scan(s))
      ensures IsName(v) && Occurs(Marker(v), s)
    {
      NamesOccur(Scan(s), v);
      NamesAreNames(Scan(s), v);
    }
  }

  /** `extractVariables`: the distinct placeholder names of the template,
      each once, in order of first occurrence in the scan. */
  function ExtractVariables(template: string): (vars: seq<string>)
    ensures NoDuplicates(vars)
    ensures forall v :: v in vars <==> v in Names(Scan(template))
    ensures forall i, j :: 0 <= i < j < |vars| ==>
      IndexOf(Names(Scan(template)), vars[i]) < IndexOf(Names(Scan(template)), vars[j])
    ensures forall v :: v in vars ==> IsName(v) && Occurs(Marker(v), template)
  {
    ScannedNames(template);
    Dedup(Names(Scan(template)))
  }

  lemma {:induction false} NamesAreNames(ps: seq<Piece>, n: string)
    requires forall i :: 0 <= i < |ps| && ps[i].Placeholder? ==> IsName(ps[i].name)
    requires n in Names(ps)
    ensures IsName(n)
    decreases |ps|
  {
    if !(ps[0].Placeholder? && ps[0].name == n) {
      NamesAreNames(ps[1..], n);
    }
  }

  /** A template yields no variables exactly when no `{{name}}` occurs in it
      anywhere: an occurrence the scan skips lies inside one it takes. */
  lemma {:induction false} NoVariablesIff(template: string)
    ensures ExtractVariables(template) == [] <==>
      forall n :: IsName(n) ==> !Occurs(Marker(n), template)
  {
    if ExtractVariables(template) != [] {
      var v := ExtractVariables(template)[0];
      assert IsName(v) && Occurs(Marker(v), template);
    }
    forall n | IsName(n) && Occurs(Marker(n), template)
      ensures Names(Scan(template)) != []
    {
      SomeNameWhenOccurs(template, n);
    }
  }

  lemma {:induction false} SomeNameWhenOccurs(s: string, n: string)
    requires IsName(n) && Occurs(Marker(n), s)
    ensures Names(Scan(s)) != []
    decreases |s|
  {
    if MarkerAt(s).None? {
      if Marker(n) <= s {
        MarkerAtMatches(s, n);
      } else {
        SomeNameWhenOccurs(s[1..], n);
        assert Scan(s) == [Text(s[0])] + Scan(s[1..]);
        assert ([Text(s[0])] + Scan(s[1..]))[1..] == Scan(s[1..]);
      }
    }
  }

  // ---------------------------------------------------------------------
  // fillTemplate

  /** `values[name] || match`: a value substitutes only when present and non-empty. */
  predicate Filled(values: map<string, string>, name: string)
  {
    name in values && values[name] != ""
  }

  function RenderPiece(p: Piece, values: map<string, string>): string
  {
    match p
    case Text(c) => [c]
    case Placeholder(n) => if Filled(values, n) then values[n] else Marker(n)
  }

  function Render(ps: seq<Piece>, values: map<string, string>): string
  {
    if |ps| == 0 then "" else RenderPiece(ps[0], values) + Render(ps[1..], values)
  }

  lemma {:induction false} RenderAppend(ps: seq<Piece>, qs: seq<Piece>, values: map<string, string>)
    ensures Render(ps + qs, values) == Render(ps, values) + Render(qs, values)
    decreases |ps|
  {
    if |ps| == 0 {
      assert ps + qs == qs;
    } else {
      assert (ps + qs)[1..] == ps[1..] + qs;
      RenderAppend(ps[1..], qs, values);
    }
  }

  lemma {:induction false} RenderTexts(a: string, values: map<string, string>)
    ensures Render(Texts(a), values) == a
    decreases |a|
  {
    if |a| > 0 {
      assert Texts(a)[1..] == Texts(a[1..]);
      RenderTexts(a[1..], values);
    }
  }

  /** Rendering with nothing to substitute reproduces the text. */
  lemma {:induction false} RenderUnfilled(ps: seq<Piece>, values: map<string, string>)
    requires forall n :: n in Names(ps) ==> !Filled(values, n)
    ensures Render(ps, values) == Flatten(ps)
    decreases |ps|
  {
    if |ps| > 0 {
      RenderUnfilled(ps[1..], values);
    }
  }

  /** What a placeholder renders to shows up in the output. */
  lemma {:induction false} RenderShows(ps: seq<Piece>, values: map<string, string>, n: string)
    requires n in Names(ps)
    ensures Occurs(RenderPiece(Placeholder(n), values), Render(ps, values))
    decreases |ps|
  {
    var head := RenderPiece(ps[0], values);
    assert Render(ps, values) == head + Render(ps[1..], values);
    if ps[0] == Placeholder(n) {
      OccursInMiddle([], head, Render(ps[1..], values));
      assert [] + head + Render(ps[1..], values) == Render(ps, values);
    } else {
      assert n in Names(ps[1..]);
      RenderShows(ps[1..], values, n);
      OccursInSuffix(RenderPiece(Placeholder(n), values), head, Render(ps[1..], values));
    }
  }

  /** Rendering depends on the values only through the names it meets. */
  lemma {:induction false} RenderAgrees(ps: seq<Piece>, v1: map<string, string>, v2: map<string, string>)
    requires forall n :: n in Names(ps) ==>
      Filled(v1, n) == Filled(v2, n) && (Filled(v1, n) ==> v1[n] == v2[n])
    ensures Render(ps, v1) == Render(ps, v2)
    decreases |ps|
  {
    if |ps| > 0 {
      RenderAgrees(ps[1..], v1, v2);
    }
  }

  lemma RenderFacts(ps: seq<Piece>, values: map<string, string>)
    ensures (forall v :: v in Names(ps) ==> !Filled(values, v)) ==> Render(ps, values) == Flatten(ps)
    ensures forall v :: v in Names(ps) ==> Occurs(RenderPiece(Placeholder(v), values), Render(ps, values))
  {
    if forall v :: v in Names(ps) ==> !Filled(values, v) {
      RenderUnfilled(ps, values);
    }
    forall v | v in Names(ps)
      ensures Occurs(RenderPiece(Placeholder(v), values), Render(ps, values))
    {
      RenderShows(ps, values, v);
    }
  }

  /** `fillTemplate`: replace each scanned placeholder by its value, copying
      everything else. Unfilled placeholders stay verbatim, and what is not
      a scanned placeholder is never touched. The output may contain new
      markers (see `FillCanMakeMarker`). */
  function FillTemplate(template: string, values: map<string, string>): (out: string)
    ensures (forall v :: v in ExtractVariables(template) ==> !Filled(values, v)) ==> out == template
    ensures forall v :: v in ExtractVariables(template) && !Filled(values, v) ==> Occurs(Marker(v), out)
    ensures forall v :: v in ExtractVariables(template) && Filled(values, v) ==> Occurs(values[v], out)
  {
    RenderFacts(Scan(template), values);
    Render(Scan(template), values)
  }

  /** Filling is relative to the scan: for any decomposition the scan would
      make, literal characters are copied and each placeholder is rendered. */
  lemma FillDecomposed(ps: seq<Piece>, values: map<string, string>)
    requires Canonical(ps)
    ensures FillTemplate(Flatten(ps), values) == Render(ps, values)
  {
    FlattenScan(ps);
  }

  /** Only the variables of the template matter to the fill. */
  lemma FillAgrees(template: string, v1: map<string, string>, v2: map<string, string>)
    requires forall n :: n in ExtractVariables(template) ==>
      Filled(v1, n) == Filled(v2, n) && (Filled(v1, n) ==> v1[n] == v2[n])
    ensures FillTemplate(template, v1) == FillTemplate(template, v2)
  {
    RenderAgrees(Scan(template), v1, v2);
  }

  /** Rendering, flattening and naming all work piece by piece from the front. */
  lemma ConsFacts(p: Piece, qs: seq<Piece>, values: map<string, string>)
    ensures Flatten([p] + qs) == PieceText(p) + Flatten(qs)
    ensures Render([p] + qs, values) == RenderPiece(p, values) + Render(qs, values)
    ensures Names([p] + qs) == (if p.Placeholder? then [p.name] else []) + Names(qs)
  {
    assert ([p] + qs)[1..] == qs;
  }

  /** Brace-free literal text in front of a canonical decomposition. */
  lemma TextsThen(a: string, qs: seq<Piece>)
    requires '{' !in a && Canonical(qs)
    ensures Canonical(Texts(a) + qs)
    ensures Flatten(Texts(a) + qs) == a + Flatten(qs)
  {
    CanonicalTexts(a, qs);
    FlattenAppend(Texts(a), qs);
    FlattenTexts(a);
  }

  /** Literal text renders as itself and names nothing. */
  lemma TextsRender(a: string, qs: seq<Piece>, values: map<string, string>)
    ensures Render(Texts(a) + qs, values) == a + Render(qs, values)
    ensures Names(Texts(a) + qs) == Names(qs)
  {
    RenderAppend(Texts(a), qs, values);
    RenderTexts(a, values);
    NamesAppend(Texts(a), qs);
    NamesTexts(a);
  }

  /** A placeholder in front of a canonical decomposition. */
  lemma PlaceholderThen(n: string, qs: seq<Piece>)
    requires IsName(n) && Canonical(qs)
    ensures Canonical([Placeholder(n)] + qs)
    ensures Flatten([Placeholder(n)] + qs) == Marker(n) + Flatten(qs)
  {
    CanonicalCons(Placeholder(n), qs);
    assert ([Placeholder(n)] + qs)[1..] == qs;
  }

  /** The decomposition of `{{{{n}}}}`: two braces, the placeholder `n`
      and two braces. */
  function BracedPieces(n: string): seq<Piece>
  {
    [Text('{')] + ([Text('{')] + ([Placeholder(n)] + (Texts("}}") + [])))
  }

  /** `{{` and `}}` around a placeholder stay literal: the scan finds the
      inner placeholder only. */
  lemma BracedScan(n: string)
    requires IsName(n)
    ensures Scan("{{" + Marker(n) + "}}") == BracedPieces(n)
    ensures Names(BracedPieces(n)) == [n]
  {
    var close := Texts("}}") + [];
    TextsThen("}}", []);
    TextsRender("}}", [], map[]);
    var tail := [Placeholder(n)] + close;
    PlaceholderThen(n, close);
    ConsFacts(Placeholder(n), close, map[]);
    var t1 := [Text('{')] + tail;
    ConsFacts(Text('{'), tail, map[]);
    var ps := [Text('{')] + t1;
    ConsFacts(Text('{'), t1, map[]);
    assert Flatten(tail) == Marker(n) + "}}";
    assert Flatten(tail)[..2] == "{{";
    BracedCanonical(n, tail, t1, ps);
    var m := Marker(n);
    assert Flatten(ps) == "{" + ("{" + (m + "}}"));
    Braces(m);
    FlattenScan(ps);
  }

  lemma BracedVariables(n: string)
    requires IsName(n)
    ensures ExtractVariables("{{" + Marker(n) + "}}") == [n]
  {
    BracedScan(n);
    assert Dedup([n]) == [n];
  }

  lemma BracedFill(n: string, values: map<string, string>)
    requires IsName(n)
    ensures FillTemplate("{{" + Marker(n) + "}}", values) == "{{" + RenderPiece(Placeholder(n), values) + "}}"
  {
    BracedScan(n);
    var close := Texts("}}") + [];
    TextsRender("}}", [], values);
    var tail := [Placeholder(n)] + close;
    ConsFacts(Placeholder(n), close, values);
    var t1 := [Text('{')] + tail;
    ConsFacts(Text('{'), tail, values);
    ConsFacts(Text('{'), t1, values);
    var r := RenderPiece(Placeholder(n), values);
    assert Render(BracedPieces(n), values) == "{" + ("{" + (r + "}}"));
    Braces(r);
  }

  /** The two leading braces of `{{{{n}}}}` start no placeholder, since a
      third brace follows them. */
  lemma BracedCanonical(n: string, tail: seq<Piece>, t1: seq<Piece>, ps: seq<Piece>)
    requires Canonical(tail) && "{{" <= Flatten(tail)
    requires t1 == [Text('{')] + tail && ps == [Text('{')] + t1
    ensures Canonical(ps)
  {
    ConsFacts(Text('{'), tail, map[]);
    var s1 := PieceText(Text('{')) + Flatten(tail);
    assert s1[1] == '{' && s1[2..][0] == '{';
    CanonicalCons(Text('{'), tail);
    ConsFacts(Text('{'), t1, map[]);
    var s0 := PieceText(Text('{')) + Flatten(t1);
    assert Flatten(t1) == s1;
    assert s0[1] == '{' && s0[2..][0] == '{';
    CanonicalCons(Text('{'), t1);
  }

  /** Filling every variable does not guarantee a marker-free output:
      with `a` set to `b`, the template `{{{{a}}}}` fills to the fresh
      marker `{{b}}`. */
  lemma FillCanMakeMarker()
    ensures ExtractVariables("{{" + Marker("a") + "}}") == ["a"]
    ensures FillTemplate("{{" + Marker("a") + "}}", map["a" := "b"]) == Marker("b")
  {
    BracedVariables("a");
    BracedFill("a", map["a" := "b"]);
    assert RenderPiece(Placeholder("a"), map["a" := "b"]) == "b";
  }

  // ---------------------------------------------------------------------
  // Built-in templates

  /** `DEFAULT_PROMPTS`, in registration order (`Object.values` order).
      `loadedAt` is the module-load instant their dates are taken at. */
  function Defaults(loadedAt: int): seq<PromptTemplate>
  {
    [Explain(loadedAt), ExplainLike5(loadedAt), ExplainWithAnalogy(loadedAt)]
  }

  /** What follows the placeholder in each built-in text. */
  const InSimpleTerms := " in simple terms"
  const LikeFive := " like I'm 5 years old"
  const WithAnalogies := " using simple analogies" + " and everyday examples"

  /** The built-ins' display names and descriptions. */
  const ExplainName := "Simple Explanation"
  const ExplainAbout := "Get a straightforward explanation of any topic"
  const Like5Name := "Explain Like I'm 5"
  const Like5About := "Get explanations suitable for young children"
  const AnalogyName := "Explain with Analogies"
  const AnalogyAbout := "Understand complex topics through relatable comparisons"

  /** The shape every built-in text shares: `Explain {{topic}}` followed by
      the rest of the sentence. */
  function ExplainText(rest: string): string
  {
    "Explain " + Marker("topic") + rest
  }

  function Explain(loadedAt: int): PromptTemplate
  {
    PromptTemplate("explain-default", ExplainName, ExplainText(InSimpleTerms),
      Some(ExplainAbout), ["topic"], loadedAt, loadedAt, Some(true))
  }

  function ExplainLike5(loadedAt: int): PromptTemplate
  {
    PromptTemplate("explain-like-5", Like5Name, ExplainText(LikeFive),
      Some(Like5About), ["topic"], loadedAt, loadedAt, Some(true))
  }

  function ExplainWithAnalogy(loadedAt: int): PromptTemplate
  {
    PromptTemplate("explain-analogy", AnalogyName, ExplainText(WithAnalogies),
      Some(AnalogyAbout), ["topic"], loadedAt, loadedAt, Some(true))
  }

  /** The decomposition of `prefix{{name}}suffix` when neither side has a brace. */
  lemma OneVariableCanonical(prefix: string, name: string, suffix: string)
    requires '{' !in prefix && '{' !in suffix && IsName(name)
    ensures Canonical(Texts(prefix) + ([Placeholder(name)] + Texts(suffix)))
  {
    CanonicalTexts(suffix, []);
    assert Texts(suffix) + [] == Texts(suffix);
    CanonicalCons(Placeholder(name), Texts(suffix));
    CanonicalTexts(prefix, [Placeholder(name)] + Texts(suffix));
  }

  lemma OneVariableFlatten(prefix: string, name: string, suffix: string)
    ensures Flatten(Texts(prefix) + ([Placeholder(name)] + Texts(suffix))) == prefix + Marker(name) + suffix
  {
    var tail := [Placeholder(name)] + Texts(suffix);
    FlattenAppend(Texts(prefix), tail);
    FlattenAppend([Placeholder(name)], Texts(suffix));
    FlattenTexts(prefix);
    FlattenTexts(suffix);
    assert Flatten([Placeholder(name)]) == Marker(name) + Flatten([]);
  }

  lemma OneVariableNames(prefix: string, name: string, suffix: string)
    ensures Names(Texts(prefix) + ([Placeholder(name)] + Texts(suffix))) == [name]
  {
    NamesAppend(Texts(prefix), [Placeholder(name)] + Texts(suffix));
    NamesAppend([Placeholder(name)], Texts(suffix));
    NamesTexts(prefix);
    NamesTexts(suffix);
    assert Names([Placeholder(name)]) == [name] + Names([]);
  }

  /** A template `prefix{{name}}suffix` with no other braces has exactly the
      variable `name`. */
  lemma OneVariable(prefix: string, name: string, suffix: string)
    requires '{' !in prefix && '{' !in suffix && IsName(name)
    ensures ExtractVariables(prefix + Marker(name) + suffix) == [name]
  {
    var ps := Texts(prefix) + ([Placeholder(name)] + Texts(suffix));
    OneVariableCanonical(prefix, name, suffix);
    OneVariableFlatten(prefix, name, suffix);
    FlattenScan(ps);
    OneVariableNames(prefix, name, suffix);
    assert Dedup([name]) == [name];
  }

  /** A built-in with text `Explain {{topic}}<rest>` has the variables `["topic"]`. */
  lemma ExplainTopicVariables(rest: string)
    requires '{' !in rest
    ensures ExtractVariables(ExplainText(rest)) == ["topic"]
  {
    assert '{' !in "Explain ";
    assert IsName("topic");
    OneVariable("Explain ", "topic", rest);
  }

  /** Each built-in is a default whose `variables` field is what
      `extractVariables` computes from its text, namely `["topic"]`. */
  lemma DefaultWellFormed(t: PromptTemplate, loadedAt: int)
    requires t in Defaults(loadedAt)
    ensures IsDefault(t) && t.variables == ExtractVariables(t.template) == ["topic"]
  {
    var ds := Defaults(loadedAt);
    assert t == ds[0] || t == ds[1] || t == ds[2];
    BuiltinVariables(loadedAt);
  }

  lemma BuiltinVariables(loadedAt: int)
    ensures ExtractVariables(Explain(loadedAt).template) == ["topic"]
    ensures ExtractVariables(ExplainLike5(loadedAt).template) == ["topic"]
    ensures ExtractVariables(ExplainWithAnalogy(loadedAt).template) == ["topic"]
  {
    ExplainVariables();
    ExplainLike5Variables();
    ExplainWithAnalogyVariables();
  }

  lemma ExplainVariables()
    ensures ExtractVariables(ExplainText(InSimpleTerms)) == ["topic"]
  {
    assert '{' !in InSimpleTerms;
    ExplainTopicVariables(InSimpleTerms);
  }

  lemma ExplainLike5Variables()
    ensures ExtractVariables(ExplainText(LikeFive)) == ["topic"]
  {
    assert '{' !in LikeFive;
    ExplainTopicVariables(LikeFive);
  }

  lemma ExplainWithAnalogyVariables()
    ensures ExtractVariables(ExplainText(WithAnalogies)) == ["topic"]
  {
    assert '{' !in " using simple analogies" && '{' !in " and everyday examples";
    ExplainTopicVariables(WithAnalogies);
  }

  /** The built-in ids are distinct and listed by `DefaultIds`. */
  lemma DefaultIdsDistinct(loadedAt: int)
    ensures forall i :: 0 <= i < 3 ==> Defaults(loadedAt)[i].id == DefaultIds()[i]
    ensures NoDuplicates(DefaultIds())
  {
    var ids := DefaultIds();
    assert ids[0][8] == 'd' && ids[1][8] == 'l' && ids[2][8] == 'a';
  }

  function DefaultIds(): seq<string>
  {
    ["explain-default", "explain-like-5", "explain-analogy"]
  }

  /** The decomposition of `a{{n1}}b{{n2}}c`. */
  function TwoPieces(a: string, n1: string, b: string, n2: string, c: string): seq<Piece>
  {
    Texts(a) + ([Placeholder(n1)] + (Texts(b) + ([Placeholder(n2)] + (Texts(c) + []))))
  }

  lemma TwoPiecesCanonical(a: string, n1: string, b: string, n2: string, c: string)
    requires '{' !in a && '{' !in b && '{' !in c && IsName(n1) && IsName(n2)
    ensures Canonical(TwoPieces(a, n1, b, n2, c))
    ensures Flatten(TwoPieces(a, n1, b, n2, c)) == a + Marker(n1) + b + Marker(n2) + c
  {
    var p5 := Texts(c) + [];
    TextsThen(c, []);
    var p4 := [Placeholder(n2)] + p5;
    PlaceholderThen(n2, p5);
    var p3 := Texts(b) + p4;
    TextsThen(b, p4);
    var p2 := [Placeholder(n1)] + p3;
    PlaceholderThen(n1, p3);
    TextsThen(a, p2);
    var m1, m2 := Marker(n1), Marker(n2);
    assert Flatten(p4) == m2 + c;
    assert Flatten(p3) == b + (m2 + c);
    assert Flatten(p2) == m1 + (b + (m2 + c));
    Associate(a, m1, b, m2, c);
  }

  lemma Braces(m: string)
    ensures "{" + ("{" + (m + "}}")) == "{{" + m + "}}"
  {
  }

  lemma Associate(a: string, b: string, c: string, d: string, e: string)
    ensures a + (b + (c + (d + e))) == a + b + c + d + e
  {
  }

  lemma TwoPiecesRender(a: string, n1: string, b: string, n2: string, c: string, values: map<string, string>)
    requires Filled(values, n1) && Filled(values, n2)
    ensures Render(TwoPieces(a, n1, b, n2, c), values) == a + values[n1] + b + values[n2] + c
  {
    var p5 := Texts(c) + [];
    RenderAppend(Texts(c), [], values);
    RenderTexts(c, values);
    var p4 := [Placeholder(n2)] + p5;
    ConsFacts(Placeholder(n2), p5, values);
    var p3 := Texts(b) + p4;
    RenderAppend(Texts(b), p4, values);
    RenderTexts(b, values);
    var p2 := [Placeholder(n1)] + p3;
    ConsFacts(Placeholder(n1), p3, values);
    RenderAppend(Texts(a), p2, values);
    RenderTexts(a, values);
    assert Render(p4, values) == values[n2] + c;
    assert Render(p3, values) == b + (values[n2] + c);
    assert Render(p2, values) == values[n1] + (b + (values[n2] + c));
    Associate(a, values[n1], b, values[n2], c);
  }

  /** A template with two placeholders and brace-free text around them
      fills both, copying the text. */
  lemma TwoPlaceholders(a: string, n1: string, b: string, n2: string, c: string, values: map<string, string>)
    requires '{' !in a && '{' !in b && '{' !in c
    requires IsName(n1) && IsName(n2) && Filled(values, n1) && Filled(values, n2)
    ensures FillTemplate(a + Marker(n1) + b + Marker(n2) + c, values)
         == a + values[n1] + b + values[n2] + c
  {
    TwoPiecesCanonical(a, n1, b, n2, c);
    TwoPiecesRender(a, n1, b, n2, c, values);
    FillDecomposed(TwoPieces(a, n1, b, n2, c), values);
  }

  /** The documented scenario: filling `Explain {{topic}} to a {{age}} year
      old` with a topic and an age gives back the plain sentence. */
  lemma FillScenario(topic: string, age: string)
    requires topic != "" && age != ""
    ensures FillTemplate("Explain " + Marker("topic") + " to a " + Marker("age") + " year old",
                         map["topic" := topic, "age" := age])
         == "Explain " + topic + " to a " + age + " year old"
  {
    var values := map["topic" := topic, "age" := age];
    assert IsName("topic") && IsName("age");
    assert Filled(values, "topic") && Filled(values, "age");
    TwoPlaceholders("Explain ", "topic", " to a ", "age", " year old", values);
  }

  // ---------------------------------------------------------------------
  // The store (key `superlearn_prompt_templates`); built-ins are never stored

  function HasId(id: string): PromptTemplate -> bool
  {
    (t: PromptTemplate) => t.id == id
  }

  function LacksId(id: string): PromptTemplate -> bool
  {
    (t: PromptTemplate) => t.id != id
  }

  /** `savePromptTemplate`: replace in place the first stored template with
      the same id, or append; without a window nothing is written. */
  function SavePromptTemplate(slot: Slot<PromptTemplate>, t: PromptTemplate): (r: Slot<PromptTemplate>)
    ensures slot.NoWindow? ==> r == slot
    ensures !slot.NoWindow? ==> r.Stored? && Upserted(Load(slot), r.records, HasId(t.id), t)
    ensures !slot.NoWindow? ==> Find(Load(r), HasId(t.id)) == Some(t)
  {
    var rs := Upsert(Load(slot), HasId(t.id), t);
    FindAfterUpsert(Load(slot), HasId(t.id), t);
    Write(slot, rs)
  }

  /** `deletePromptTemplate`: keep exactly the stored templates with another
      id, in order. It returns nothing; an id that is not stored (every
      built-in id, in particular) leaves the loaded list as it was. */
  function DeletePromptTemplate(slot: Slot<PromptTemplate>, id: string): (r: Slot<PromptTemplate>)
    ensures slot.NoWindow? ==> r == slot
    ensures !slot.NoWindow? ==> r.Stored?
    ensures forall t :: t in Load(r) ==> t in Load(slot) && t.id != id
    ensures !slot.NoWindow? ==> forall t :: t in Load(slot) && t.id != id ==> t in Load(r)
    ensures (forall i :: 0 <= i < |Load(slot)| ==> Load(slot)[i].id != id) ==> Load(r) == Load(slot)
    ensures Load(r) == Keep(Load(slot), LacksId(id))
  {
    KeepNone(Load(slot), id);
    Write(slot, Keep(Load(slot), LacksId(id)))
  }

  lemma KeepNone(ts: seq<PromptTemplate>, id: string)
    ensures (forall i :: 0 <= i < |ts| ==> ts[i].id != id) ==> Keep(ts, LacksId(id)) == ts
  {
    if forall i :: 0 <= i < |ts| ==> ts[i].id != id {
      KeepAll(ts, LacksId(id));
    }
  }

  /** Stored templates made by the editor have ids `custom-<time>`. */
  predicate CustomId(id: string)
  {
    "custom-" <= id
  }

  /** Deleting a built-in never changes storage while only editor-made
      templates are stored. */
  lemma DeleteBuiltinIsNoop(slot: Slot<PromptTemplate>, id: string)
    requires id in DefaultIds()
    requires forall t :: t in Load(slot) ==> CustomId(t.id)
    ensures Load(DeletePromptTemplate(slot, id)) == Load(slot)
  {
    forall i | 0 <= i < |Load(slot)|
      ensures Load(slot)[i].id != id
    {
      assert CustomId(Load(slot)[i].id);
      assert Load(slot)[i].id[0] == 'c';
    }
  }
}

=== FILE: records.dfy ===
/** A browser storage slot holding a JSON array of records, and the list
    operations every store in the application performs on such an array:
    find-first, find-index, upsert-by-key and filter. */
module Records {

  import opened Basics

  /** The state of one localStorage key as a loader sees it.
      `NoWindow`: code is running where `window` is undefined, so reads
      yield nothing and guarded writes are skipped.
      `Unreadable`: the key is missing or its text does not parse; reads
      yield the empty list and the next write replaces it.
      `Stored`: the key holds the given records. */
  datatype Slot<T> = NoWindow | Unreadable | Stored(records: seq<T>)

  /** What a loader returns for a slot. */
  function Load<T>(slot: Slot<T>): (rs: seq<T>)
    ensures slot.Stored? ==> rs == slot.records
    ensures !slot.Stored? ==> rs == []
  {
    if slot.Stored? then slot.records else []
  }

  /** A guarded write: nothing happens without a window. */
  function Write<T>(slot: Slot<T>, rs: seq<T>): (r: Slot<T>)
    ensures slot.NoWindow? ==> r == slot
    ensures !slot.NoWindow? ==> r == Stored(rs) && Load(r) == rs
  {
    if slot.NoWindow? then slot else Stored(rs)
  }

  /** Position `k` holds the first record satisfying `p`. */
  predicate FirstMatch<T>(xs: seq<T>, p: T -> bool, k: int)
  {
    0 <= k < |xs| && p(xs[k]) && forall j :: 0 <= j < k ==> !p(xs[j])
  }

  predicate AnyMatch<T>(xs: seq<T>, p: T -> bool)
  {
    exists i :: 0 <= i < |xs| && p(xs[i])
  }

  /** `xs.findIndex(p)`, with -1 as `None`. */
  function FindIndex<T>(xs: seq<T>, p: T -> bool): (r: Option<nat>)
    ensures r.None? <==> !AnyMatch(xs, p)
    ensures r.Some? ==> FirstMatch(xs, p, r.value)
  {
    if |xs| == 0 then None
    else if p(xs[0]) then Some(0)
    else
      var r := FindIndex(xs[1..], p);
      if r.Some? then Some(r.value + 1) else None
  }

  lemma FirstMatchUnique<T>(xs: seq<T>, p: T -> bool, k: int, k': int)
    requires FirstMatch(xs, p, k) && FirstMatch(xs, p, k')
    ensures k == k'
  {
  }

  /** `xs.find(p) || null`: the first record satisfying `p`, if any. */
  function Find<T>(xs: seq<T>, p: T -> bool): (r: Option<T>)
    ensures r.None? <==> !AnyMatch(xs, p)
    ensures r.Some? ==> exists k :: FirstMatch(xs, p, k) && xs[k] == r.value
  {
    match FindIndex(xs, p)
    case Some(k) => Some(xs[k])
    case None => None
  }

  /** `ys` is `xs` with its first `p`-record replaced by `x`, or with `x`
      appended when there is none. */
  ghost predicate Upserted<T>(xs: seq<T>, ys: seq<T>, p: T -> bool, x: T)
  {
    if AnyMatch(xs, p) then
      |ys| == |xs| && forall k :: FirstMatch(xs, p, k) ==>
        ys[k] == x && forall j :: 0 <= j < |xs| && j != k ==> ys[j] == xs[j]
    else
      ys == xs + [x]
  }

  /** The find-index-then-assign-or-push idiom every store uses to save. */
  function Upsert<T>(xs: seq<T>, p: T -> bool, x: T): (ys: seq<T>)
    ensures Upserted(xs, ys, p, x)
  {
    match FindIndex(xs, p)
    case Some(k) => xs[k := x]
    case None => xs + [x]
  }

  /** After an upsert of a record that satisfies `p`, finding by `p`
      returns that record. */
  lemma FindAfterUpsert<T>(xs: seq<T>, p: T -> bool, x: T)
    requires p(x)
    ensures Find(Upsert(xs, p, x), p) == Some(x)
  {
    var ys := Upsert(xs, p, x);
    match FindIndex(xs, p)
    case Some(k) =>
      assert FirstMatch(ys, p, k);
      FirstMatchUnique(ys, p, k, FindIndex(ys, p).value);
    case None =>
      assert FirstMatch(ys, p, |xs|);
      FirstMatchUnique(ys, p, |xs|, FindIndex(ys, p).value);
  }

  /** `xs.filter(keep)`. */
  function Keep<T>(xs: seq<T>, keep: T -> bool): (ys: seq<T>)
    ensures |ys| <= |xs|
    ensures forall y :: y in ys ==> y in xs && keep(y)
    ensures forall i :: 0 <= i < |xs| && keep(xs[i]) ==> xs[i] in ys
    ensures |ys| == |xs| <==> forall i :: 0 <= i < |xs| ==> keep(xs[i])
  {
    if |xs| == 0 then []
    else
      var rest := Keep(xs[1..], keep);
      assert forall i :: 1 <= i < |xs| ==> xs[i] == xs[1..][i - 1];
      if keep(xs[0]) then [xs[0]] + rest else rest
  }

  /** Filtering is done piecewise, so the kept records keep their order. */
  lemma KeepAppend<T>(xs: seq<T>, ys: seq<T>, keep: T -> bool)
    ensures Keep(xs + ys, keep) == Keep(xs, keep) + Keep(ys, keep)
  {
    FilterAppend(xs, ys, keep);
    KeepIsFilter(xs + ys, keep);
    KeepIsFilter(xs, keep);
    KeepIsFilter(ys, keep);
  }

  /** `Keep` without its contract, for proofs about its shape. */
  function Filter<T>(xs: seq<T>, keep: T -> bool): seq<T>
  {
    if |xs| == 0 then [] else (if keep(xs[0]) then [xs[0]] else []) + Filter(xs[1..], keep)
  }

  lemma {:induction false} KeepIsFilter<T>(xs: seq<T>, keep: T -> bool)
    ensures Keep(xs, keep) == Filter(xs, keep)
    decreases |xs|
  {
    if |xs| > 0 {
      KeepIsFilter(xs[1..], keep);
    }
  }

  lemma {:induction false} FilterAppend<T>(xs: seq<T>, ys: seq<T>, keep: T -> bool)
    ensures Filter(xs + ys, keep) == Filter(xs, keep) + Filter(ys, keep)
    decreases |xs|
  {
    if |xs| == 0 {
      assert xs + ys == ys;
    } else {
      var zs, h := xs + ys, if keep(xs[0]) then [xs[0]] else [];
      assert zs[0] == xs[0] && zs[1..] == xs[1..] + ys;
      FilterAppend(xs[1..], ys, keep);
      assert Filter(zs, keep) == h + (Filter(xs[1..], keep) + Filter(ys, keep));
      SeqAssoc(h, Filter(xs[1..], keep), Filter(ys, keep));
    }
  }

  /** Filtering a list with a given head. */
  lemma KeepCons<T>(x: T, xs: seq<T>, keep: T -> bool)
    ensures Keep([x] + xs, keep) == (if keep(x) then [x] else []) + Keep(xs, keep)
  {
    assert ([x] + xs)[1..] == xs;
  }

  lemma SeqAssoc<T>(a: seq<T>, b: seq<T>, c: seq<T>)
    ensures a + (b + c) == (a + b) + c
  {
  }

  /** A filter that drops nothing is the identity. */
  lemma {:induction false} KeepAll<T>(xs: seq<T>, keep: T -> bool)
    requires forall i :: 0 <= i < |xs| ==> keep(xs[i])
    ensures Keep(xs, keep) == xs
    decreases |xs|
  {
    if |xs| > 0 {
      assert forall i :: 0 <= i < |xs| - 1 ==> xs[1..][i] == xs[i + 1];
      KeepAll(xs[1..], keep);
      assert keep(xs[0]);
      assert xs == [xs[0]] + xs[1..];
    }
  }

  /** Filtering keeps every copy of a kept record and no copy of any other. */
  lemma {:induction false} KeepCount<T>(xs: seq<T>, keep: T -> bool, x: T)
    ensures multiset(Keep(xs, keep))[x] == if keep(x) then multiset(xs)[x] else 0
    decreases |xs|
  {
    if |xs| > 0 {
      KeepCount(xs[1..], keep, x);
      assert xs == [xs[0]] + xs[1..];
    }
  }

  /** A filter that keeps nothing leaves nothing. */
  lemma {:induction false} KeepNothing<T>(xs: seq<T>, keep: T -> bool)
    requires forall i :: 0 <= i < |xs| ==> !keep(xs[i])
    ensures Keep(xs, keep) == []
    decreases |xs|
  {
    if |xs| > 0 {
      KeepNothing(xs[1..], keep);
    }
  }
}

=== FILE: storage.dfy ===
/** The client-side curriculum database (app/db/storage.ts): two record
    lists kept under the browser keys `curricula` and `content`. A missing
    key reads as the empty list, so the database is just the two lists.

    Every write stamps records with the current instant; `Now` carries the
    clock reading (`Date.now()` for ids, the ISO text for dates). */
module Storage {

  import opened Basics
  import opened Js
  import opened Records

  /** The generated body of a topic. */
  datatype TopicContent = TopicContent(
    overview: string,
    keyConcepts: seq<string>,
    practicalExamples: seq<string>,
    importantPoints: seq<string>,
    exercises: seq<string>)

  datatype Topic = Topic(id: string, title: string, description: string, content: Option<TopicContent>)

  datatype Curriculum = Curriculum(
    id: string,
    title: string,
    topics: seq<Topic>,
    createdAt: string,
    updatedAt: string)

  datatype StoredContent = StoredContent(
    id: string,
    curriculumId: string,
    topicId: string,
    content: TopicContent,
    createdAt: string,
    updatedAt: string)

  datatype Db = Db(curricula: seq<Curriculum>, content: seq<StoredContent>)

  /** A clock reading: milliseconds since the epoch and its ISO text. */
  datatype Now = Now(ms: nat, iso: string)

  /** `Date.now().toString()`: the id a new record gets. */
  function FreshId(now: Now): (id: string)
    ensures |id| > 0 && forall i :: 0 <= i < |id| ==> IsDigit(id[i])
  {
    NatToString(now.ms)
  }

  // ---------------------------------------------------------------------
  // Curricula

  function CurriculumHasId(id: string): Curriculum -> bool
  {
    (c: Curriculum) => c.id == id
  }

  function CurriculumLacksId(id: string): Curriculum -> bool
  {
    (c: Curriculum) => c.id != id
  }

  /** `db.curricula.getById`: the first curriculum with that id, or null. */
  function GetCurriculum(db: Db, id: string): (r: Option<Curriculum>)
    ensures r.None? <==> forall i :: 0 <= i < |db.curricula| ==> db.curricula[i].id != id
    ensures r.Some? ==> exists k :: FirstMatch(db.curricula, CurriculumHasId(id), k) && db.curricula[k] == r.value
  {
    Find(db.curricula, CurriculumHasId(id))
  }

  /** `db.curricula.save`: append a new curriculum with the given title and
      topics, a fresh id and both dates set to now; return it. */
  function SaveCurriculum(db: Db, title: string, topics: seq<Topic>, now: Now): (r: (Db, Curriculum))
    ensures r.0.curricula == db.curricula + [r.1]
    ensures r.0.content == db.content
    ensures r.1.title == title && r.1.topics == topics
    ensures r.1.id == FreshId(now) && r.1.createdAt == now.iso && r.1.updatedAt == now.iso
  {
    var c := Curriculum(FreshId(now), title, topics, now.iso, now.iso);
    (db.(curricula := db.curricula + [c]), c)
  }

  /** `Partial<Curriculum>`: `None` is a field the update does not mention. */
  datatype CurriculumPatch = CurriculumPatch(
    id: Option<string>,
    title: Option<string>,
    topics: Option<seq<Topic>>,
    createdAt: Option<string>,
    updatedAt: Option<string>)

  /** `{ ...c, ...updates, updatedAt: now }`: mentioned fields override
      (the id included), and `updatedAt` is always the current instant. */
  function PatchCurriculum(c: Curriculum, u: CurriculumPatch, now: Now): (r: Curriculum)
    ensures r.id == u.id.GetOr(c.id) && r.title == u.title.GetOr(c.title)
    ensures r.topics == u.topics.GetOr(c.topics) && r.createdAt == u.createdAt.GetOr(c.createdAt)
    ensures r.updatedAt == now.iso
    ensures u == CurriculumPatch(None, None, None, None, None) ==> r == c.(updatedAt := now.iso)
  {
    Curriculum(u.id.GetOr(c.id), u.title.GetOr(c.title), u.topics.GetOr(c.topics),
               u.createdAt.GetOr(c.createdAt), now.iso)
  }

  /** `db.curricula.update`: patch the first curriculum with that id in
      place and return it; null, with nothing written, for an unknown id. */
  function UpdateCurriculum(db: Db, id: string, u: CurriculumPatch, now: Now): (r: (Db, Option<Curriculum>))
    ensures r.1.None? <==> forall i :: 0 <= i < |db.curricula| ==> db.curricula[i].id != id
    ensures r.1.None? ==> r.0 == db
    ensures r.0.content == db.content
    ensures r.1.Some? ==> exists k ::
              && FirstMatch(db.curricula, CurriculumHasId(id), k)
              && r.0.curricula == db.curricula[k := PatchCurriculum(db.curricula[k], u, now)]
              && r.1.value == r.0.curricula[k]
  {
    match FindIndex(db.curricula, CurriculumHasId(id))
    case None => (db, None)
    case Some(k) =>
      var c := PatchCurriculum(db.curricula[k], u, now);
      (db.(curricula := db.curricula[k := c]), Some(c))
  }

  function ContentOutside(id: string): StoredContent -> bool
  {
    (s: StoredContent) => s.curriculumId != id
  }

  /** `db.curricula.delete`: when some curriculum has the id, drop every
      such curriculum and every content record of that curriculum and
      answer true; otherwise write nothing and answer false. */
  function DeleteCurriculum(db: Db, id: string): (r: (Db, bool))
    ensures r.1 <==> exists i :: 0 <= i < |db.curricula| && db.curricula[i].id == id
    ensures !r.1 ==> r.0 == db
    ensures r.1 ==> r.0.curricula == Keep(db.curricula, CurriculumLacksId(id))
    ensures r.1 ==> r.0.content == Keep(db.content, ContentOutside(id))
    ensures forall c :: c in r.0.curricula <==> c in db.curricula && c.id != id
    ensures r.1 ==> forall s :: s in r.0.content <==> s in db.content && s.curriculumId != id
  {
    var kept := Keep(db.curricula, CurriculumLacksId(id));
    if |kept| == |db.curricula| then
      KeepNoneCurricula(db.curricula, id);
      (db, false)
    else
      (Db(kept, Keep(db.content, ContentOutside(id))), true)
  }

  lemma KeepNoneCurricula(cs: seq<Curriculum>, id: string)
    requires |Keep(cs, CurriculumLacksId(id))| == |cs|
    ensures forall c :: c in cs ==> c.id != id
  {
    forall c | c in cs
      ensures c.id != id
    {
      var i :| 0 <= i < |cs| && cs[i] == c;
      assert CurriculumLacksId(id)(cs[i]);
    }
  }

  // ---------------------------------------------------------------------
  // Content, one record per (curriculumId, topicId) pair

  function ContentHasId(id: string): StoredContent -> bool
  {
    (s: StoredContent) => s.id == id
  }

  function ContentLacksId(id: string): StoredContent -> bool
  {
    (s: StoredContent) => s.id != id
  }

  function ForTopic(curriculumId: string, topicId: string): StoredContent -> bool
  {
    (s: StoredContent) => s.curriculumId == curriculumId && s.topicId == topicId
  }

  /** `db.content.getByTopicId`: the first record of the pair, or null. */
  function GetContent(db: Db, curriculumId: string, topicId: string): (r: Option<StoredContent>)
    ensures r.None? <==> !AnyMatch(db.content, ForTopic(curriculumId, topicId))
    ensures r.Some? ==> exists k ::
              FirstMatch(db.content, ForTopic(curriculumId, topicId), k) && db.content[k] == r.value
  {
    Find(db.content, ForTopic(curriculumId, topicId))
  }

  datatype ContentPatch = ContentPatch(
    id: Option<string>,
    curriculumId: Option<string>,
    topicId: Option<string>,
    content: Option<TopicContent>,
    createdAt: Option<string>,
    updatedAt: Option<string>)

  /** `{ ...s, ...updates, updatedAt: now }` for content records. */
  function PatchContent(s: StoredContent, u: ContentPatch, now: Now): (r: StoredContent)
    ensures r.id == u.id.GetOr(s.id) && r.curriculumId == u.curriculumId.GetOr(s.curriculumId)
    ensures r.topicId == u.topicId.GetOr(s.topicId) && r.content == u.content.GetOr(s.content)
    ensures r.createdAt == u.createdAt.GetOr(s.createdAt) && r.updatedAt == now.iso
  {
    StoredContent(u.id.GetOr(s.id), u.curriculumId.GetOr(s.curriculumId), u.topicId.GetOr(s.topicId),
                  u.content.GetOr(s.content), u.createdAt.GetOr(s.createdAt), now.iso)
  }

  /** The patch `{ content }` that `db.content.save` sends for an existing pair. */
  function ContentOnly(c: TopicContent): ContentPatch
  {
    ContentPatch(None, None, None, Some(c), None, None)
  }

  /** `db.content.update`: patch the first record with that id in place. */
  function UpdateContent(db: Db, id: string, u: ContentPatch, now: Now): (r: (Db, Option<StoredContent>))
    ensures r.1.None? <==> !AnyMatch(db.content, ContentHasId(id))
    ensures r.1.None? ==> r.0 == db
    ensures r.0.curricula == db.curricula
    ensures r.1.Some? ==> exists k ::
              && FirstMatch(db.content, ContentHasId(id), k)
              && r.0.content == db.content[k := PatchContent(db.content[k], u, now)]
              && r.1.value == r.0.content[k]
  {
    match FindIndex(db.content, ContentHasId(id))
    case None => (db, None)
    case Some(k) =>
      var s := PatchContent(db.content[k], u, now);
      (db.(content := db.content[k := s]), Some(s))
  }

  /** The record a first save of a pair appends. */
  function NewContent(curriculumId: string, topicId: string, c: TopicContent, now: Now): StoredContent
  {
    StoredContent(FreshId(now), curriculumId, topicId, c, now.iso, now.iso)
  }

  /** `db.content.save` as written: for a pair already stored, update the
      first record carrying THAT RECORD'S ID; otherwise append a new record.
      Ids are clock readings, so two records can share one, and then the
      update can land on a record of another pair (see `SaveContentMisses`). */
  function SaveContentAsWritten(db: Db, curriculumId: string, topicId: string, c: TopicContent, now: Now): (r: (Db, StoredContent))
    ensures r.0.curricula == db.curricula
    ensures !AnyMatch(db.content, ForTopic(curriculumId, topicId)) ==>
      r.0.content == db.content + [r.1] && r.1 == NewContent(curriculumId, topicId, c, now)
    ensures AnyMatch(db.content, ForTopic(curriculumId, topicId)) ==> exists k, j ::
              && FirstMatch(db.content, ForTopic(curriculumId, topicId), k)
              && FirstMatch(db.content, ContentHasId(db.content[k].id), j)
              && r.0.content == db.content[j := PatchContent(db.content[j], ContentOnly(c), now)]
              && r.1 == r.0.content[j]
  {
    match GetContent(db, curriculumId, topicId)
    case Some(existing) =>
      var u := UpdateContent(db, existing.id, ContentOnly(c), now);
      assert ContentHasId(existing.id)(existing);
      (u.0, u.1.value)
    case None =>
      var s := NewContent(curriculumId, topicId, c, now);
      (db.(content := db.content + [s]), s)
  }

  /** `db.content.save` as intended: for a pair already stored, overwrite
      the content of that pair's record in place; otherwise append. */
  function SaveContent(db: Db, curriculumId: string, topicId: string, c: TopicContent, now: Now): (r: (Db, StoredContent))
    ensures r.0.curricula == db.curricula
    ensures !AnyMatch(db.content, ForTopic(curriculumId, topicId)) ==>
      r.0.content == db.content + [r.1] && r.1 == NewContent(curriculumId, topicId, c, now)
    ensures AnyMatch(db.content, ForTopic(curriculumId, topicId)) ==> exists k ::
              && FirstMatch(db.content, ForTopic(curriculumId, topicId), k)
              && r.0.content == db.content[k := PatchContent(db.content[k], ContentOnly(c), now)]
              && r.1 == r.0.content[k]
    ensures r.1.curriculumId == curriculumId && r.1.topicId == topicId && r.1.content == c
    ensures r.1 in r.0.content
  {
    match FindIndex(db.content, ForTopic(curriculumId, topicId))
    case Some(k) =>
      var s := PatchContent(db.content[k], ContentOnly(c), now);
      (db.(content := db.content[k := s]), s)
    case None =>
      var s := NewContent(curriculumId, topicId, c, now);
      (db.(content := db.content + [s]), s)
  }

  /** No two content records belong to the same pair. */
  predicate UniquePairs(cs: seq<StoredContent>)
  {
    forall i, j :: 0 <= i < j < |cs| ==>
      !(cs[i].curriculumId == cs[j].curriculumId && cs[i].topicId == cs[j].topicId)
  }

  /** No two content records share an id. */
  predicate UniqueIds(cs: seq<StoredContent>)
  {
    forall i, j :: 0 <= i < j < |cs| ==> cs[i].id != cs[j].id
  }

  /** Saving keeps "at most one record per pair", and afterwards the pair
      reads back the saved content. */
  lemma SaveContentKeepsPairsUnique(db: Db, curriculumId: string, topicId: string, c: TopicContent, now: Now)
    requires UniquePairs(db.content)
    ensures UniquePairs(SaveContent(db, curriculumId, topicId, c, now).0.content)
    ensures GetContent(SaveContent(db, curriculumId, topicId, c, now).0, curriculumId, topicId)
         == Some(SaveContent(db, curriculumId, topicId, c, now).1)
  {
    var r := SaveContent(db, curriculumId, topicId, c, now);
    var p := ForTopic(curriculumId, topicId);
    match FindIndex(db.content, p)
    case Some(k) =>
      assert forall i :: 0 <= i < |r.0.content| ==>
        r.0.content[i].curriculumId == db.content[i].curriculumId && r.0.content[i].topicId == db.content[i].topicId;
      assert FirstMatch(r.0.content, p, k);
      FirstMatchUnique(r.0.content, p, k, FindIndex(r.0.content, p).value);
    case None =>
      assert FirstMatch(r.0.content, p, |db.content|);
      FirstMatchUnique(r.0.content, p, |db.content|, FindIndex(r.0.content, p).value);
  }

  /** Saving the same content twice leaves the same records as saving it
      once, apart from the second `updatedAt` stamp. */
  lemma SaveContentTwice(db: Db, curriculumId: string, topicId: string, c: TopicContent, now: Now, later: Now)
    requires now.iso == later.iso
    ensures var once := SaveContent(db, curriculumId, topicId, c, now).0;
            SaveContent(once, curriculumId, topicId, c, later).0 == once
  {
    var once := SaveContent(db, curriculumId, topicId, c, now);
    var p := ForTopic(curriculumId, topicId);
    assert p(once.1);
    var k :| FirstMatch(once.0.content, p, k) && once.0.content[k] == once.1 by {
      match FindIndex(db.content, p)
      case Some(k) =>
        assert FirstMatch(once.0.content, p, k);
      case None =>
        assert FirstMatch(once.0.content, p, |db.content|);
    }
    var k' := FindIndex(once.0.content, p).value;
    FirstMatchUnique(once.0.content, p, k, k');
    assert once.0.content[k := PatchContent(once.0.content[k], ContentOnly(c), later)] == once.0.content;
  }

  /** With distinct ids the source's update-by-id hits the pair's own
      record, so the as-written save and the intended save agree. */
  lemma SaveContentAgreesOnUniqueIds(db: Db, curriculumId: string, topicId: string, c: TopicContent, now: Now)
    requires UniqueIds(db.content)
    ensures SaveContentAsWritten(db, curriculumId, topicId, c, now) == SaveContent(db, curriculumId, topicId, c, now)
  {
    var p := ForTopic(curriculumId, topicId);
    match FindIndex(db.content, p)
    case Some(k) =>
      var q := ContentHasId(db.content[k].id);
      assert FirstMatch(db.content, q, k);
      FirstMatchUnique(db.content, q, k, FindIndex(db.content, q).value);
    case None =>
  }

  /** The as-written save misses: two records of one curriculum share the
      id "1" (two first saves in the same millisecond); saving new content
      for the second topic rewrites the first topic's record and leaves the
      second topic's old content in place. */
  lemma SaveContentMisses(before: TopicContent, after: TopicContent, now: Now)
    requires before != after
    ensures var a := StoredContent("1", "c", "a", before, "t", "t");
            var b := StoredContent("1", "c", "b", before, "t", "t");
            var r := SaveContentAsWritten(Db([], [a, b]), "c", "b", after, now);
            && GetContent(r.0, "c", "b") == Some(b)
            && r.0.content[0].topicId == "a" && r.0.content[0].content == after
  {
    var a := StoredContent("1", "c", "a", before, "t", "t");
    var b := StoredContent("1", "c", "b", before, "t", "t");
    var db := Db([], [a, b]);
    var p := ForTopic("c", "b");
    assert !p(a) && p(b);
    assert FirstMatch(db.content, p, 1);
    FirstMatchUnique(db.content, p, 1, FindIndex(db.content, p).value);
    var q := ContentHasId("1");
    assert FirstMatch(db.content, q, 0);
    FirstMatchUnique(db.content, q, 0, FindIndex(db.content, q).value);
    var r := SaveContentAsWritten(db, "c", "b", after, now);
    assert r.0.content == [PatchContent(a, ContentOnly(after), now), b];
    assert FirstMatch(r.0.content, p, 1);
    FirstMatchUnique(r.0.content, p, 1, FindIndex(r.0.content, p).value);
  }

  /** `db.content.delete`: true exactly when some record has the id, and
      then every such record is dropped; otherwise nothing is written. */
  function DeleteContent(db: Db, id: string): (r: (Db, bool))
    ensures r.1 <==> exists i :: 0 <= i < |db.content| && db.content[i].id == id
    ensures !r.1 ==> r.0 == db
    ensures r.0.curricula == db.curricula
    ensures r.0.content == Keep(db.content, ContentLacksId(id))
    ensures forall s :: s in r.0.content <==> s in db.content && s.id != id
  {
    var kept := Keep(db.content, ContentLacksId(id));
    if |kept| == |db.content| then
      KeepAll(db.content, ContentLacksId(id));
      (db, false)
    else
      (db.(content := kept), true)
  }
}

=== FILE: tool_execution.dfy ===
/** The tool-call display (components/tool-execution.tsx): for each call a
    row with an icon, a label made from the tool name, a status text and an
    optional count of sources. Layout and animation are not modelled. */
module ToolExecution {

  import opened Basics
  import opened Js
  import Tools

  // ---------------------------------------------------------------------
  // The label

  /** `replace(/_/g, ' ')`. */
  function Spaced(s: string): (t: string)
    ensures |t| == |s| && '_' !in t
    ensures forall i :: 0 <= i < |s| ==> t[i] == if s[i] == '_' then ' ' else s[i]
  {
    seq(|s|, i requires 0 <= i < |s| => if s[i] == '_' then ' ' else s[i])
  }

  /** Position `i` matches `\b\w`: a `\w` character at the start of the text
      or right after a character that is not `\w`. */
  predicate WordStart(s: string, i: int)
    requires 0 <= i < |s|
  {
    IsWordChar(s[i]) && (i == 0 || !IsWordChar(s[i - 1]))
  }

  /** `toUpperCase` on a `\w` character: only `a`-`z` change. */
  function UpperCase(c: char): (u: char)
    ensures IsWordChar(c) <==> IsWordChar(u)
    ensures !('a' <= u <= 'z')
    ensures !('a' <= c <= 'z') ==> u == c
    ensures 'a' <= c <= 'z' ==> 'A' <= u <= 'Z' && u as int == c as int - 32
  {
    if 'a' <= c <= 'z' then (c as int - 32) as char else c
  }

  /** `replace(/\b\w/g, l => l.toUpperCase())`. */
  function CapitaliseWords(s: string): (t: string)
    ensures |t| == |s|
    ensures forall i :: 0 <= i < |s| ==> t[i] == if WordStart(s, i) then UpperCase(s[i]) else s[i]
  {
    seq(|s|, i requires 0 <= i < |s| => if WordStart(s, i) then UpperCase(s[i]) else s[i])
  }

  /** Capitalising keeps every word where it was. */
  lemma CapitaliseKeepsWords(s: string)
    ensures forall i :: 0 <= i < |s| ==> (WordStart(CapitaliseWords(s), i) <==> WordStart(s, i))
  {
  }

  /** The label of a call: underscores become spaces and the first letter of
      every word is upper-case; nothing else changes. */
  function ToolLabel(tool: string): (t: string)
    ensures |t| == |tool| && '_' !in t
    ensures forall i :: 0 <= i < |tool| ==> (t[i] == ' ' <==> tool[i] == '_' || tool[i] == ' ')
    ensures forall i :: 0 <= i < |t| && WordStart(t, i) ==> !('a' <= t[i] <= 'z')
    ensures forall i :: 0 <= i < |t| && WordStart(t, i) ==> t[i] == UpperCase(tool[i])
    ensures forall i :: 0 <= i < |t| && !WordStart(t, i) ==> t[i] == Spaced(tool)[i]
  {
    CapitaliseKeepsWords(Spaced(tool));
    CapitaliseWords(Spaced(tool))
  }

  /** A label is its own label. */
  lemma LabelIdempotent(tool: string)
    ensures ToolLabel(ToolLabel(tool)) == ToolLabel(tool)
  {
    var t := ToolLabel(tool);
    assert Spaced(t) == t;
    CapitaliseKeepsWords(Spaced(tool));
  }

  /** Labels are made word by word: an underscore between two names
      becomes a space between their labels. */
  lemma LabelJoin(a: string, b: string)
    ensures ToolLabel(a + "_" + b) == ToolLabel(a) + " " + ToolLabel(b)
  {
    SpacedJoin(a, b);
    CapitaliseJoin(Spaced(a), Spaced(b));
  }

  lemma SpacedJoin(a: string, b: string)
    ensures Spaced(a + "_" + b) == Spaced(a) + " " + Spaced(b)
  {
    var s, t := a + "_" + b, Spaced(a) + " " + Spaced(b);
    forall i | 0 <= i < |s|
      ensures Spaced(s)[i] == t[i]
    {
      if i < |a| {
        assert s[i] == a[i];
      } else if i > |a| {
        assert s[i] == b[i - |a| - 1];
      }
    }
  }

  lemma CapitaliseJoin(a: string, b: string)
    ensures CapitaliseWords(a + " " + b) == CapitaliseWords(a) + " " + CapitaliseWords(b)
  {
    var c := CapitaliseWords(a + " " + b);
    forall i | 0 <= i < |a|
      ensures c[..|a|][i] == CapitaliseWords(a)[i]
    {
      CapitaliseLeft(a, b, i);
    }
    forall j | 0 <= j < |b|
      ensures c[|a| + 1..][j] == CapitaliseWords(b)[j]
    {
      CapitaliseRight(a, b, j);
    }
    assert (a + " " + b)[|a|] == ' ';
    Reassemble(c, |a|);
  }

  /** A sequence is its part before `k`, its item at `k` and its part after. */
  lemma Reassemble<T>(x: seq<T>, k: nat)
    requires k < |x|
    ensures x == x[..k] + [x[k]] + x[k + 1..]
  {
  }

  /** Words of the left part start where they did before the join. */
  lemma CapitaliseLeft(a: string, b: string, i: nat)
    requires i < |a|
    ensures CapitaliseWords(a + " " + b)[i] == CapitaliseWords(a)[i]
  {
    var s := a + " " + b;
    assert s[i] == a[i];
    if i > 0 {
      assert s[i - 1] == a[i - 1];
    }
    assert WordStart(s, i) == WordStart(a, i);
  }

  /** Words of the right part start where they did before the join, since a
      space precedes it. */
  lemma CapitaliseRight(a: string, b: string, j: nat)
    requires j < |b|
    ensures CapitaliseWords(a + " " + b)[|a| + 1 + j] == CapitaliseWords(b)[j]
  {
    var s, i := a + " " + b, |a| + 1 + j;
    assert s[i] == b[j];
    assert s[i - 1] == if j > 0 then b[j - 1] else ' ';
    assert WordStart(s, i) == WordStart(b, j);
  }

  predicate LowerWord(w: string)
  {
    |w| > 0 && forall i :: 0 <= i < |w| ==> 'a' <= w[i] <= 'z'
  }

  /** A lower-case word gets its first letter upper-cased, nothing else. */
  lemma OneWord(w: string)
    requires LowerWord(w)
    ensures ToolLabel(w) == [UpperCase(w[0])] + w[1..]
  {
    assert Spaced(w) == w;
    var c := CapitaliseWords(w);
    forall j | 0 <= j < |w| - 1
      ensures c[1..][j] == w[1..][j]
    {
      assert !WordStart(w, j + 1);
    }
    Reassemble(c, 0);
  }

  /** The label of a two-word name `x_y`. */
  lemma PairLabel(name: string, x: string, y: string, expected: string)
    requires name == x + "_" + y && LowerWord(x) && LowerWord(y)
    requires expected == [UpperCase(x[0])] + x[1..] + " " + ([UpperCase(y[0])] + y[1..])
    ensures ToolLabel(name) == expected
  {
    OneWord(x);
    OneWord(y);
    LabelJoin(x, y);
  }

  /** The labels of the three registered tools. */
  lemma RegisteredLabels()
    ensures ToolLabel(Tools.AcademicSearch.name) == "Academic Search"
    ensures ToolLabel(Tools.WebSearch.name) == "Web Search"
    ensures ToolLabel(Tools.Calculator.name) == "Calculator"
  {
    AcademicLabel();
    WebLabel();
    CalculatorLabel();
  }

  lemma AcademicLabel()
    ensures ToolLabel(Tools.AcademicSearch.name) == "Academic Search"
  {
    var x, y := "academic", "search";
    assert LowerWord(x) && LowerWord(y);
    assert UpperCase(x[0]) == 'A' && UpperCase(y[0]) == 'S';
    assert [UpperCase(x[0])] + x[1..] == "Academic";
    assert [UpperCase(y[0])] + y[1..] == "Search";
    assert Tools.AcademicSearch.name == x + "_" + y;
    PairLabel(Tools.AcademicSearch.name, x, y, "Academic Search");
  }

  lemma WebLabel()
    ensures ToolLabel(Tools.WebSearch.name) == "Web Search"
  {
    var x, y := "web", "search";
    assert LowerWord(x) && LowerWord(y);
    assert UpperCase(x[0]) == 'W' && UpperCase(y[0]) == 'S';
    assert [UpperCase(x[0])] + x[1..] == "Web";
    assert [UpperCase(y[0])] + y[1..] == "Search";
    assert Tools.WebSearch.name == x + "_" + y;
    PairLabel(Tools.WebSearch.name, x, y, "Web Search");
  }

  lemma CalculatorLabel()
    ensures ToolLabel(Tools.Calculator.name) == "Calculator"
  {
    var x := "calculator";
    assert LowerWord(x);
    assert UpperCase(x[0]) == 'C';
    assert [UpperCase(x[0])] + x[1..] == "Calculator";
    assert Tools.Calculator.name == x;
    WordLabel(Tools.Calculator.name, "Calculator");
  }

  /** The label of a one-word name. */
  lemma WordLabel(name: string, expected: string)
    requires LowerWord(name) && expected == [UpperCase(name[0])] + name[1..]
    ensures ToolLabel(name) == expected
  {
    OneWord(name);
  }

  // ---------------------------------------------------------------------
  // Status

  /** The icons a row can show. `ToolIcon` is the registered tool's own icon. */
  datatype Icon = ToolIcon(tool: string) | Loader | Spinner | Check | Cross

  /** `toolIcons` has an entry. */
  predicate HasIcon(tool: string)
  {
    tool == "academic_search" || tool == "web_search" || tool == "calculator"
  }

  /** Every registered tool has an icon. */
  lemma RegisteredToolsHaveIcons()
    ensures forall t :: t in Tools.GetAllTools() ==> HasIcon(t.name)
  {
    Tools.AllToolsFound();
  }

  /** The icon: the tool's own (or a loader) while pending, a spinning loader
      while running, a check or a cross when done. */
  function StatusIcon(call: Tools.ToolCall): (icon: Icon)
    ensures icon.ToolIcon? <==> call.status.Pending? && HasIcon(call.tool)
    ensures icon.ToolIcon? ==> icon.tool == call.tool
    ensures call.status.Running? <==> icon.Spinner?
    ensures call.status.Completed? <==> icon.Check?
    ensures call.status.Failed? <==> icon.Cross?
  {
    match call.status
    case Pending => if HasIcon(call.tool) then ToolIcon(call.tool) else Loader
    case Running => Spinner
    case Completed => Check
    case Failed => Cross
  }

  /** `call.result?.metadata?.duration`. */
  function Duration(call: Tools.ToolCall): Option<int>
  {
    if call.result.Some? && call.result.value.metadata.Some? then call.result.value.metadata.value.duration
    else None
  }

  /** `call.result?.metadata?.sources`. */
  function Sources(call: Tools.ToolCall): Option<seq<string>>
  {
    if call.result.Some? && call.result.value.metadata.Some? then call.result.value.metadata.value.sources
    else None
  }

  /** `call.result?.error || 'Failed'`. */
  function FailureText(call: Tools.ToolCall): (text: string)
    ensures text != ""
    ensures call.result.Some? && call.result.value.error.Some? && call.result.value.error.value != "" ==>
              text == call.result.value.error.value
  {
    if call.result.Some? && call.result.value.error.Some? && call.result.value.error.value != ""
    then call.result.value.error.value
    else "Failed"
  }

  function CompletedText(d: int): string
  {
    "Completed in " + IntToString(d) + "ms"
  }

  /** The status text as the component renders it. The completed case is
      `status === 'completed' && duration && text`; a duration of 0 is falsy
      and is itself what the expression yields, and React prints the number. */
  function StatusTextAsWritten(call: Tools.ToolCall): (text: string)
    ensures call.status.Completed? && Duration(call) == Some(0) ==> text == "0"
  {
    match call.status
    case Pending => "Waiting..."
    case Running => "Processing..."
    case Completed =>
      (match Duration(call)
       case None => ""
       case Some(d) => if d == 0 then IntToString(0) else CompletedText(d))
    case Failed => FailureText(call)
  }

  /** The status text with the duration guard made a test: a completed call
      shows its time when the duration is present and non-zero, and nothing
      otherwise. */
  function StatusText(call: Tools.ToolCall): (text: string)
    ensures call.status.Pending? ==> text == "Waiting..."
    ensures call.status.Running? ==> text == "Processing..."
    ensures call.status.Failed? ==> text == FailureText(call) && text != ""
    ensures call.status.Completed? ==>
              (text != "" <==> Duration(call).Some? && Duration(call).value != 0)
    ensures call.status.Completed? && text != "" ==> "Completed in " <= text
    ensures call.status.Completed? && Duration(call).Some? && Duration(call).value != 0 ==>
              text == "Completed in " + IntToString(Duration(call).value) + "ms"
  {
    match call.status
    case Pending => "Waiting..."
    case Running => "Processing..."
    case Completed =>
      (match Duration(call)
       case Some(d) => if d != 0 then CompletedText(d) else ""
       case None => "")
    case Failed => FailureText(call)
  }

  /** The two texts differ only for a completed call that took 0 ms, where
      the component shows a bare "0". */
  lemma StatusTextsAgree(call: Tools.ToolCall)
    ensures StatusTextAsWritten(call) != StatusText(call) <==>
              call.status.Completed? && Duration(call) == Some(0)
  {
    if call.status.Completed? && Duration(call) == Some(0) {
      assert StatusTextAsWritten(call) == "0";
    }
  }

  /** `N sources`, shown exactly when the metadata lists sources (even none). */
  function SourcesBadge(call: Tools.ToolCall): (badge: Option<string>)
    ensures badge.Some? <==> Sources(call).Some?
    ensures badge.Some? ==> badge.value == IntToString(|Sources(call).value|) + " sources"
  {
    match Sources(call)
    case Some(ss) => Some(IntToString(|ss|) + " sources")
    case None => None
  }

  // ---------------------------------------------------------------------
  // The list

  datatype Row = Row(key: string, icon: Icon, title: string, status: string, badge: Option<string>)

  /** One row as the component renders it, with the as-written status text:
      a completed call that took 0 ms shows a bare "0". */
  function RenderRow(call: Tools.ToolCall): (row: Row)
    ensures row.key == call.id && row.title == ToolLabel(call.tool)
    ensures row.icon == StatusIcon(call) && row.status == StatusTextAsWritten(call) && row.badge == SourcesBadge(call)
    ensures call.status.Completed? && Duration(call) == Some(0) ==> row.status == "0"
  {
    Row(call.id, StatusIcon(call), ToolLabel(call.tool), StatusTextAsWritten(call), SourcesBadge(call))
  }

  /** The row with the corrected status text. */
  function FixedRow(call: Tools.ToolCall): (row: Row)
    ensures row.key == call.id && row.title == ToolLabel(call.tool)
    ensures row.icon == StatusIcon(call) && row.status == StatusText(call) && row.badge == SourcesBadge(call)
  {
    Row(call.id, StatusIcon(call), ToolLabel(call.tool), StatusText(call), SourcesBadge(call))
  }

  /** The rendered and corrected rows differ only in the status, and only for
      a completed call that took 0 ms, where the corrected row shows nothing. */
  lemma RowsAgree(call: Tools.ToolCall)
    ensures RenderRow(call).(status := "") == FixedRow(call).(status := "")
    ensures RenderRow(call) != FixedRow(call) <==> call.status.Completed? && Duration(call) == Some(0)
    ensures call.status.Completed? && Duration(call) == Some(0) ==>
              RenderRow(call).status == "0" && FixedRow(call).status == ""
  {
    StatusTextsAgree(call);
  }

  /** `ToolExecution`: nothing for no calls, otherwise one row per call, in order. */
  function Render(calls: seq<Tools.ToolCall>): (rows: Option<seq<Row>>)
    ensures rows.None? <==> |calls| == 0
    ensures rows.Some? ==> |rows.value| == |calls|
    ensures rows.Some? ==> forall i :: 0 <= i < |calls| ==> rows.value[i] == RenderRow(calls[i])
  {
    if |calls| == 0 then None
    else Some(seq(|calls|, i requires 0 <= i < |calls| => RenderRow(calls[i])))
  }
}

=== FILE: tools.dfy ===
/** Tool descriptors, tool results and tool calls (lib/tools/types.ts), and
    the fixed registry of the three tools (lib/tools/index.ts). The
    `execute` members call the network and are not part of this model; a
    descriptor keeps its name, description and parameter schema. */
module Tools {

  import opened Basics
  import opened Json

  /** `metadata` of a result: the two named fields and the open rest. */
  datatype Metadata = Metadata(duration: Option<int>, sources: Option<seq<string>>, extra: map<string, Value>)

  datatype ToolResult = ToolResult(
    success: bool,
    data: Option<Value>,
    error: Option<string>,
    metadata: Option<Metadata>)

  datatype CallStatus = Pending | Running | Completed | Failed

  /** A call of a tool; dates are epoch milliseconds. No code in the
      application moves a call from one status to another. */
  datatype ToolCall = ToolCall(
    id: string,
    tool: string,
    parameters: Value,
    status: CallStatus,
    result: Option<ToolResult>,
    startedAt: Option<int>,
    completedAt: Option<int>)

  /** One entry of a parameter schema's `properties`. */
  datatype Property = Property(name: string, kind: string, description: string, default: Option<int>)

  /** `parameters`: always of type `object`. */
  datatype Schema = Schema(properties: seq<Property>, required: seq<string>)

  datatype Tool = Tool(name: string, description: string, parameters: Schema)

  const AcademicSearch: Tool := Tool(
    "academic_search",
    "Search for peer-reviewed academic papers and research",
    Schema([Property("query", "string", "The search query for academic papers", None),
            Property("limit", "number", "Maximum number of results to return", Some(5))],
           ["query"]))

  const WebSearch: Tool := Tool(
    "web_search",
    "Search the web for current information",
    Schema([Property("query", "string", "The search query", None),
            Property("limit", "number", "Maximum number of results", Some(5))],
           ["query"]))

  const Calculator: Tool := Tool(
    "calculator",
    "Perform mathematical calculations",
    Schema([Property("expression", "string", "Mathematical expression to evaluate (e.g., \"2 + 2 * 3\")", None)],
           ["expression"]))

  /** The `tools` record, entries in insertion order. */
  const Registry: seq<(string, Tool)> :=
    [("academic_search", AcademicSearch), ("web_search", WebSearch), ("calculator", Calculator)]

  /** `getTool`: the descriptor registered under `name`. */
  function GetTool(name: string): (r: Option<Tool>)
    ensures r.Some? <==> exists i :: 0 <= i < |Registry| && Registry[i].0 == name
    ensures r.Some? ==> exists i :: 0 <= i < |Registry| && Registry[i] == (name, r.value)
  {
    Lookup(Registry, name)
  }

  function Lookup(entries: seq<(string, Tool)>, name: string): (r: Option<Tool>)
    ensures r.Some? <==> exists i :: 0 <= i < |entries| && entries[i].0 == name
    ensures r.Some? ==> exists i :: 0 <= i < |entries| && entries[i] == (name, r.value)
  {
    if |entries| == 0 then None
    else if entries[0].0 == name then Some(entries[0].1)
    else
      var r := Lookup(entries[1..], name);
      assert forall i :: 1 <= i < |entries| ==> entries[i] == entries[1..][i - 1];
      r
  }

  /** `getAllTools`: `Object.values(tools)`, in insertion order. */
  function GetAllTools(): (ts: seq<Tool>)
    ensures |ts| == |Registry|
    ensures forall i :: 0 <= i < |ts| ==> ts[i] == Registry[i].1
  {
    seq(|Registry|, i requires 0 <= i < |Registry| => Registry[i].1)
  }

  /** Every registry key is its tool's own name, and the keys are distinct. */
  lemma RegistryKeysAreNames()
    ensures forall i :: 0 <= i < |Registry| ==> Registry[i].0 == Registry[i].1.name
    ensures forall i, j :: 0 <= i < j < |Registry| ==> Registry[i].0 != Registry[j].0
  {
    assert Registry[0].0[0] == 'a' && Registry[1].0[0] == 'w' && Registry[2].0[0] == 'c';
  }

  /** Listing and looking up agree: every listed tool is found under its
      name, and these are the three tools, in order. */
  lemma AllToolsFound()
    ensures GetAllTools() == [AcademicSearch, WebSearch, Calculator]
    ensures forall t :: t in GetAllTools() ==> GetTool(t.name) == Some(t)
  {
    RegistryKeysAreNames();
    var ts := GetAllTools();
    assert ts == [AcademicSearch, WebSearch, Calculator];
    forall t | t in ts
      ensures GetTool(t.name) == Some(t)
    {
      var i :| 0 <= i < |ts| && ts[i] == t;
      var r := GetTool(t.name);
      var j :| 0 <= j < |Registry| && Registry[j] == (t.name, r.value);
      assert Registry[i].0 == t.name;
    }
  }

  /** The searches require `query`; the calculator requires `expression`. */
  lemma RequiredParameters()
    ensures AcademicSearch.parameters.required == ["query"]
    ensures WebSearch.parameters.required == ["query"]
    ensures Calculator.parameters.required == ["expression"]
    ensures forall t :: t in GetAllTools() ==> forall r :: r in t.parameters.required ==>
              exists p :: p in t.parameters.properties && p.name == r
  {
    assert GetAllTools() == [AcademicSearch, WebSearch, Calculator];
    assert AcademicSearch.parameters.properties[0].name == "query";
    assert WebSearch.parameters.properties[0].name == "query";
    assert Calculator.parameters.properties[0].name == "expression";
  }
}

=== FILE: web_search_route.dfy ===
/** The web search handler (app/api/tools/web-search/route.ts). It performs
    no search: after checking `query` it lists three fixed results built
    around the query and cuts the list at `limit`. */
module WebSearchRoute {

  import opened Basics
  import opened Js
  import opened Json
  import opened Http

  const QueryRequired := "Query parameter is required"
  const SearchFailed := "Failed to perform web search"

  datatype WebResult = WebResult(title: string, snippet: string, url: string, source: string)

  function ResultValue(w: WebResult): Value
  {
    JObj(map["title" := JStr(w.title), "snippet" := JStr(w.snippet),
             "url" := JStr(w.url), "source" := JStr(w.source)])
  }

  /** The fixed texts around the query in the mock results. */
  const GuideSnippet := ". Learn the fundamentals and advanced concepts..."
  const WikipediaSnippet := " is a topic that encompasses various aspects of modern technology and science..."
  const NewsSnippet := ". Discover what experts are saying..."

  /** The three mock results; `q` is the query as a template literal shows it. */
  function MockResults(q: string): (ws: seq<WebResult>)
    ensures |ws| == 3
    ensures ws[0].source == "Example Guide" && ws[1].source == "Wikipedia" && ws[2].source == "Tech News"
  {
    [WebResult("Understanding " + q, "A comprehensive guide to " + q + GuideSnippet,
       "https://example.com/guide", "Example Guide"),
     WebResult(q + " - Wikipedia", q + WikipediaSnippet,
       "https://en.wikipedia.org/wiki/Example", "Wikipedia"),
     WebResult("Latest developments in " + q, "Recent research and news about " + q + NewsSnippet,
       "https://example.com/news", "Tech News")]
  }

  /** Every mock title contains the query. */
  lemma TitlesEmbedQuery(q: string)
    ensures forall w :: w in MockResults(q) ==> Occurs(q, w.title)
  {
    var ws := MockResults(q);
    OccursInMiddle("Understanding ", q, "");
    assert "Understanding " + q + "" == ws[0].title;
    OccursInMiddle("", q, " - Wikipedia");
    assert "" + q + " - Wikipedia" == ws[1].title;
    OccursInMiddle("Latest developments in ", q, "");
    assert "Latest developments in " + q + "" == ws[2].title;
  }

  /** The successful reply: the first results up to the limit, a fixed
      duration of 250 and a total of 3 whatever the limit. */
  function Listing(q: string, limit: int): (r: Response)
    ensures r.status == 200 && r.body.JObj?
    ensures r.body.fields.Keys == {"results", "duration", "totalResults"}
    ensures r.body.fields["duration"] == JNum(250) && r.body.fields["totalResults"] == JNum(3)
    ensures var items := r.body.fields["results"];
            && items.JArr? && |items.items| <= 3
            && (0 <= limit ==> |items.items| == if limit < 3 then limit else 3)
            && forall i :: 0 <= i < |items.items| ==> items.items[i] == ResultValue(MockResults(q)[i])
    ensures r.body.fields["results"] == JArr(MockValues(q)[..SliceEnd(3, limit)])
  {
    var results := SliceFront(JArr(MockValues(q)), limit).value.0;
    Response(200, JObj(map["results" := results, "duration" := JNum(250), "totalResults" := JNum(3)]))
  }

  /** The mock results as JSON objects, in order. */
  function MockValues(q: string): (vs: seq<Value>)
    ensures |vs| == 3
    ensures forall i :: 0 <= i < 3 ==> vs[i] == ResultValue(MockResults(q)[i])
  {
    var ws := MockResults(q);
    [ResultValue(ws[0]), ResultValue(ws[1]), ResultValue(ws[2])]
  }

  /** `POST`. A missing or `null` body fails; a missing or falsy `query` is
      rejected; anything else is listed. `converted` is the integer a
      non-numeric `limit` converts to. */
  function Search(req: Request, converted: int): (r: Response)
    ensures Field(req, "query").TypeError? ==> r == ErrorResponse(500, SearchFailed)
    ensures !Field(req, "query").TypeError? && !Given(Field(req, "query")) ==> r == ErrorResponse(400, QueryRequired)
    ensures Given(Field(req, "query")) ==>
              r == Listing(ToJsString(Field(req, "query").value), Limit(req, converted))
    ensures r.status == 400 <==> !Field(req, "query").TypeError? && !Given(Field(req, "query"))
  {
    var q := Field(req, "query");
    if q.TypeError? then ErrorResponse(500, SearchFailed)
    else if !Given(q) then ErrorResponse(400, QueryRequired)
    else Listing(ToJsString(q.value), Limit(req, converted))
  }

  /** The limit only cuts the list: the totals agree and the shorter list is
      a prefix of the longer. */
  lemma LimitOnlyCuts(q: string, l1: int, l2: int)
    requires 0 <= l1 <= l2
    ensures Listing(q, l1).body.fields["totalResults"] == Listing(q, l2).body.fields["totalResults"]
    ensures Listing(q, l1).body.fields["results"].items <= Listing(q, l2).body.fields["results"].items
  {
  }
}
